=== FILE: README.md ===
# Mobile notary business: a Dafny model

This project models the logic of a small mobile-notary web application.
Clients book appointments through a four-step wizard. Notaries sign in,
claim open jobs from a shared board, and mark their claimed jobs completed
or cancelled. They keep a profile, and an administrator logs notarial
sessions and business expenses. The application's data lives in a hosted
Postgres database whose typed schema fixes the row shapes and the three
enumerations (`app_role`, `job_status`, `notarial_act`).

The model is written as pure functions over immutable values:

- `Common`: optional values, ASCII case mapping, prefix tests and sums.
- `Schema`: the database enumerations, the `jobs` and `session_logs` rows and inserts, and the job lifecycle invariant.
- `JobStore`: the jobs table as a map from id to row. It covers the conditional claim, the status update, and the two ordered queries the notary pages run.
- `JobViews`: what the job pages show, namely service labels, status badges, payouts and buttons, plus the message after a claim.
- `SessionLog`: the session logger's totals, fee form and act-type select.
- `Expenses`: the mileage and expense totals and the category select.
- `Booking`: the booking wizard as a state machine over user actions.
- `NotaryProfile`: the profile form, its normalisation of stored rows, and the save update.
- `Nav`: the header's active-link test and the portal link.

Money is held in integer cents, so the 0.67 $/mile rate is 67 cents.
Distances are whole miles. Timestamps and dates are opaque natural numbers
that are only compared. The clock is a parameter (`now`), and so is the
signed-in user. The store's error flag is a parameter of the profile save
and of the claim message only; reads are modelled as always succeeding. A store write is a function from
the old table to a new table plus a flag saying whether the filter matched
a row. A filter that matches nothing is not an error, which is how the
hosted database behaves.

Behaviour of the code worth noting:

- Completing or cancelling a job (`UpdateJobStatus`) filters on the job id only, and nothing checks that the job is claimed (src/pages/notary/MyJobs.tsx:109-112). `JobStore.UnguardedUpdateIgnoresStatus` shows what follows: a completed job can be cancelled, and an open job can be completed with no claimant.
- The session logger's Save button closes the dialog and shows a message, but stores nothing. The journal's ordering, filtering and search are not implemented on that page either.
- Three of the logger's five act-type options produce select values that are not `notarial_act` words, and loan signing is not offered.
- The cancel message says the job was "returned to the pool". The write sets the status to `cancelled`, so the job never reappears on the open board. The model keeps the write as written. Which of the two is meant is not evident, so this is not listed as a finding.

## Model

| member | source | states |
|---|---|---|
| `Common.Lower` | src/pages/admin/SessionLogger.tsx:244 | a select option's value keeps the name's length and lower-cases each ASCII capital, leaving every other character alone |
| `Schema.ParseRole` | src/integrations/supabase/types.ts:288 | a word parses to the role with that name, and to nothing exactly when no role has that name |
| `Schema.ParseStatus` | src/integrations/supabase/types.ts:289 | a word parses to the status with that name, and to nothing exactly when no status has that name |
| `Schema.ParseAct` | src/integrations/supabase/types.ts:290-296 | a word parses to the notarial act with that name, and to nothing exactly when no act has that name |
| `Schema.EnumRoundTrips` | src/integrations/supabase/types.ts:287-297 | every enumeration value survives being written as its wire word and read back |
| `Schema.JobStatusHasFourValues` | src/integrations/supabase/types.ts:289 | the job status has exactly four distinct values with distinct wire words |
| `Schema.NotarialActHasSixValues` | src/integrations/supabase/types.ts:290-296 | there are exactly six notarial acts, acknowledgment first and loan signing last, with distinct wire words |
| `Schema.ConstantsMatchEnums` | src/integrations/supabase/types.ts:421-436 | the exported constant arrays list each enumeration's words in declaration order, without repeats, and a word is listed exactly when it parses |
| `Schema.NewJob` | src/integrations/supabase/types.ts:76-100 | an inserted job takes the given or a fresh id, defaults to `open`, and takes the given `created_at` and `updated_at` or else `now`; an insert that sets no lifecycle column yields a row satisfying the lifecycle invariant |
| `Schema.Absent` | src/integrations/supabase/types.ts:205-223 | exactly the names whose column is absent are reported, and nothing is reported exactly when every column is present |
| `Schema.MissingSessionColumns` | src/integrations/supabase/types.ts:205-223 | the missing columns are among the eight required ones, and none is missing exactly when all eight are present |
| `Schema.ValidateSessionLog` | src/integrations/supabase/types.ts:205-223 | a draft is accepted exactly when no required column is missing; an accepted draft carries each of its fifteen columns over unchanged; a rejection names the missing columns |
| `Schema.FeesAndMileageAreOptional` | src/integrations/supabase/types.ts:213-222 | the notary fee, travel fee and mileage never decide whether a session log is accepted |
| `Schema.InsertSessionLog` | src/integrations/supabase/types.ts:243-251 | an insert fails exactly when it references a job that does not exist; otherwise one row is appended, carrying every insert column unchanged, a fresh id and `created_at` = `now`, and valid job references stay valid |
| `JobStore.ConditionalClaim` | src/pages/notary/JobBoard.tsx:100-108 | the claim matches exactly when the job exists and is open; then it becomes claimed by the claimant at `now` with its other details kept; no other row changes, and nothing changes when it does not match |
| `JobStore.ClaimJob` | src/pages/notary/JobBoard.tsx:95-108 | without a signed-in user nothing is written; otherwise the claim matches exactly when the job exists and is open, a match makes the job claimed by that user at `now` with its details kept, no other row changes, and a claim that matches nothing changes nothing |
| `JobStore.UpdateJobStatus` | src/pages/notary/MyJobs.tsx:101-112 | the update matches any existing job whatever its status; completing stamps `completed_at`, cancelling keeps it; claimant and other rows are kept |
| `JobStore.WritesKeepKeysAndNeverReopen` | src/pages/notary/MyJobs.tsx:101-112 | no sequence of claims and status updates adds or removes a job or returns a non-open job to `open` |
| `JobStore.FirstClaimIsFinal` | src/pages/notary/JobBoard.tsx:100-108 | once a job is claimed, no later sequence of writes changes who claimed it |
| `JobStore.SequentialClaimsFirstWins` | src/pages/notary/JobBoard.tsx:107-108 | of two claims on one open job, the first matches and the second matches nothing and leaves the first claimant in place |
| `JobStore.ClaimKeepsLifecycle` | src/pages/notary/JobBoard.tsx:102-106 | a claim keeps every row's lifecycle invariant |
| `JobStore.ResolveClaimedKeepsLifecycle` | src/pages/notary/MyJobs.tsx:104-112 | completing or cancelling a claimed job keeps every row's lifecycle invariant and leaves it completed or cancelled |
| `JobStore.UnguardedUpdateIgnoresStatus` | src/pages/notary/MyJobs.tsx:109-112 | cancelling a completed job breaks the lifecycle invariant, and completing an open job leaves a completed job with no claimant |
| `JobStore.WritesKeepKeys` | src/pages/notary/MyJobs.tsx:101-112 | no sequence of claims and status updates adds or removes a job |
| `JobStore.WritesKeepSessionJobRefs` | src/integrations/supabase/types.ts:243-251 | no job write can leave a session log pointing at a missing job |
| `JobStore.TabStatus` | src/pages/notary/MyJobs.tsx:85 | none of the three My Jobs tabs lists open jobs |
| `JobStore.InsertByDate` | src/pages/notary/JobBoard.tsx:80 | inserting a row into a date-ordered list adds exactly that row |
| `JobStore.InsertByDateKeepsSorted` | src/pages/notary/JobBoard.tsx:80 | inserting into a list ordered by scheduled date keeps it ordered |
| `JobStore.InsertByDateKeepsDistinct` | src/pages/notary/JobBoard.tsx:80 | inserting a row with a new id keeps ids distinct |
| `JobStore.SelectOrdered` | src/pages/notary/MyJobs.tsx:86-91 | the query returns exactly the stored rows matching the filter, each once, in ascending scheduled date |
| `JobStore.OpenJobs` | src/pages/notary/JobBoard.tsx:76-80 | the job board lists every open job and nothing else, ordered by date, each once |
| `JobStore.MyJobs` | src/pages/notary/MyJobs.tsx:81-91 | without a user nothing is fetched; otherwise exactly the stored jobs claimed by the user with the tab's status, each once, ordered by date |
| `JobStore.ClaimedJobLeavesOpenList` | src/pages/notary/JobBoard.tsx:100-120 | after a claim, a job is on the open board exactly when it was before and is not the claimed job |
| `JobStore.ClaimThenCompleteScenario` | src/pages/notary/MyJobs.tsx:101-112 | a job claimed and then completed is stamped, shows on its claimant's Completed tab, and is off the Active tab, another notary's Completed tab and the open board |
| `JobViews.ServiceTypeLabel` | src/pages/notary/JobBoard.tsx:243 | a word with no label is shown as it is; otherwise the shown text is its label |
| `JobViews.LabelKeysAreActWords` | src/pages/notary/JobBoard.tsx:44-51 | the label table is keyed by exactly the six notarial act words |
| `JobViews.ActLabelFound` | src/pages/notary/JobBoard.tsx:44-51 | each act's label is present, non-empty, and starts with that act's own initial |
| `JobViews.EveryActHasItsOwnLabel` | src/pages/notary/JobBoard.tsx:44-51 | every act is shown with its own non-empty label, no two acts share a label, and any other word is shown unchanged |
| `JobViews.Capitalize` | src/pages/notary/MyJobs.tsx:257 | only the first character changes, to its upper case |
| `JobViews.CapitalizeInverse` | src/pages/notary/MyJobs.tsx:257 | lower-casing a capitalised lower-case word gives the word back |
| `JobViews.StatusLabelsRoundTrip` | src/pages/notary/MyJobs.tsx:257 | the badges read Open, Claimed, Completed and Cancelled, and each badge lower-cased parses back to its status |
| `JobViews.StatusLabelIs` | src/pages/notary/MyJobs.tsx:257 | each status's badge is its capitalised wire word |
| `JobViews.NumberOf` | src/pages/notary/JobBoard.tsx:263 | a null money column reads as zero |
| `JobViews.Payout` | src/pages/notary/JobBoard.tsx:263 | the payout is fee plus travel fee, with a missing part counting zero |
| `JobViews.WritesKeepPayout` | src/pages/notary/MyJobs.tsx:282 | neither a claim nor a status update changes a job's payout |
| `JobViews.ActionsOffered` | src/pages/notary/MyJobs.tsx:293-318 | Complete and Cancel are offered on the Active tab, which lists claimed jobs, and on no other tab |
| `JobViews.OfferedActionKeepsLifecycle` | src/pages/notary/MyJobs.tsx:293-318 | a button on a listed, unchanged row keeps every row's lifecycle invariant and the user's claim |
| `JobViews.ClaimMessageAsWritten` | src/pages/notary/JobBoard.tsx:110-121 | the page reports failure exactly when the store reports an error |
| `JobViews.LostRaceReportedAsClaimed` | src/pages/notary/JobBoard.tsx:100-121 | a second claim on a job that another notary has claimed matches nothing, yet the message as written says the job was claimed |
| `JobViews.ClaimMessage` | src/pages/notary/JobBoard.tsx:110-121 | the corrected message says "claimed" exactly when there was no error and the update matched the job |
| `JobViews.ClaimMessageTellsTheTruth` | src/pages/notary/JobBoard.tsx:100-121 | with the corrected message, a notary is told "claimed" exactly when the job was open and is now theirs |
| `JobViews.ClaimMessageRaceOutcome` | src/pages/notary/JobBoard.tsx:100-121 | of two notaries claiming one open job in turn, only the first is told it was claimed |
| `SessionLog.TotalFees` | src/pages/admin/SessionLogger.tsx:138 | the column of total fees, entry by entry |
| `SessionLog.Mileages` | src/pages/admin/SessionLogger.tsx:139 | the column of mileages, entry by entry |
| `SessionLog.Summarize` | src/pages/admin/SessionLogger.tsx:137-139 | the session count is the number of entries; revenue and mileage are the sums of the entries' total fees and miles |
| `SessionLog.AppendEntryRaisesTotals` | src/pages/admin/SessionLogger.tsx:138-139 | one more entry raises revenue by its total fee and mileage by its miles |
| `SessionLog.RevenueSplitsIntoFees` | src/pages/admin/SessionLogger.tsx:52-104 | when each entry's total is its notary fee plus travel fee, revenue is total notary fees plus total travel fees |
| `SessionLog.SampleJournalFigures` | src/pages/admin/SessionLogger.tsx:52-104 | the three listed sessions each charge the Texas maximum of $6.00, have consistent totals, and add up to $168.00 and 67 miles |
| `SessionLog.DefaultNotaryFeeIsTexasMax` | src/pages/admin/SessionLogger.tsx:126-130 | the fee form opens at $6.00, the Texas maximum, with travel fee and mileage empty |
| `SessionLog.SaveSession` | src/pages/admin/SessionLogger.tsx:132-135 | saving closes the dialog and changes neither the journal nor the form |
| `SessionLog.SaveKeepsFigures` | src/pages/admin/SessionLogger.tsx:132-139 | saving leaves the session count, revenue and mileage as they were |
| `SessionLog.ActSelectValuesVersusEnum` | src/pages/admin/SessionLogger.tsx:106-112 | only the Acknowledgment and Jurat options yield `notarial_act` words; the other three yield words the database does not accept |
| `SessionLog.LoanSigningNotOffered` | src/pages/admin/SessionLogger.tsx:106-112 | the five act options do not include loan signing |
| `Expenses.MileageValue` | src/pages/admin/Expenses.tsx:389 | an entry's value is zero without miles or rate, and 67 cents a mile at the standard rate |
| `Expenses.Totals` | src/pages/admin/Expenses.tsx:121-123 | the three figures are the sums of the entries' miles, of their values and of the expense amounts |
| `Expenses.StandardRateValue` | src/pages/admin/Expenses.tsx:121-122 | when every entry is at the standard rate, the mileage value is 67 cents times the total miles |
| `Expenses.AppendRaisesTotals` | src/pages/admin/Expenses.tsx:121-123 | one more entry raises each total by exactly that entry's miles, value or amount |
| `Expenses.SampleFigures` | src/pages/admin/Expenses.tsx:49-104 | the listed entries are at the standard rate and total 67 miles worth $44.89 and $164.98 of expenses |
| `Expenses.CategoriesAreDistinct` | src/pages/admin/Expenses.tsx:106-114 | there are seven categories, no two alike even after lower-casing, and each listed expense has one of them |
| `Expenses.LowerKeepsDifference` | src/pages/admin/Expenses.tsx:335 | two different category names have different select values |
| `Expenses.AddMileage` | src/pages/admin/Expenses.tsx:125-128 | adding a mileage entry closes its dialog and records nothing |
| `Expenses.AddExpense` | src/pages/admin/Expenses.tsx:130-133 | adding an expense closes its dialog and records nothing |
| `Expenses.AddingKeepsFigures` | src/pages/admin/Expenses.tsx:121-133 | no run of add presses changes the three figures |
| `Booking.Set` | src/pages/Book.tsx:54-56 | an edit sets the named field and keeps every other field |
| `Booking.FieldStep` | src/pages/Book.tsx:113-270 | service type and time are edited on step one, every other field on step two |
| `Booking.Step` | src/pages/Book.tsx:54-377 | the first Continue advances from step one to two exactly when service, time and date are set; the second Continue from two to three exactly when name, email, phone and address are set; Submit finishes only from review; Back goes from two to one and from three to two; no other button moves the wizard, and a move forward is always by one step; an edit on the step that renders its control, with a value the control can produce, sets that field and nothing else, and any other edit does nothing; a date pick on step one sets the date unless the day is disabled, and does nothing otherwise; the confirmation step ignores everything |
| `Booking.InitConsistent` | src/pages/Book.tsx:41-52 | the wizard starts on step one in a consistent state |
| `Booking.StepKeepsConsistent` | src/pages/Book.tsx:185-186 | every action keeps the wizard consistent |
| `Booking.RunKeepsConsistent` | src/pages/Book.tsx:273-278 | any sequence of actions keeps the wizard consistent |
| `Booking.FindService` | src/pages/Book.tsx:309 | the lookup finds the first option with the value, or reports that none has it |
| `Booking.ReviewServiceLabel` | src/pages/Book.tsx:309 | the review shows a service label exactly when the value is one of the three options |
| `Booking.ReviewLabels` | src/pages/Book.tsx:34-38 | general, loan and ron show as General Notary, Loan Signing and Remote Online Notary; any other value shows nothing |
| `Booking.SubmittedRequestIsComplete` | src/pages/Book.tsx:374-377 | whatever the user did, a request under review or submitted has a labelled service, a listed time, a date and the four contact fields |
| `Booking.ConfirmationIsFinal` | src/pages/Book.tsx:386 | once submitted, the wizard stays on the confirmation card |
| `Booking.HappyPath` | src/pages/Book.tsx:185-377 | choosing a service, a time and an allowed date, then the contact fields, reaches the confirmation step |
| `Booking.CircleAt` | src/pages/Book.tsx:94-99 | a circle is coloured once the wizard has reached it and ticked once it is past it |
| `Booking.ProgressShowsStep` | src/pages/Book.tsx:90-107 | exactly the circles up to the current step are coloured, only the current one is without a tick, and a bar is filled exactly when the circle before it is ticked |
| `NotaryProfile.OrDefault` | src/pages/notary/Profile.tsx:75-83 | a null or empty value reads as the default, and any other value as itself |
| `NotaryProfile.Normalize` | src/pages/notary/Profile.tsx:72-84 | the form shows the stored name and email; each nullable text column as stored, or "" when null; the stored state when non-empty, and "TX" when it is null or empty; and the stored availability, or available when null |
| `NotaryProfile.Fetch` | src/pages/notary/Profile.tsx:63-87 | without a user or a stored row the form is unchanged; otherwise it shows the user's row |
| `NotaryProfile.Edit` | src/pages/notary/Profile.tsx:227-317 | editing a text field sets that field to the typed value and keeps the other seven text fields, the email and the availability |
| `NotaryProfile.SetAvailable` | src/pages/notary/Profile.tsx:339 | the switch sets availability and nothing else |
| `NotaryProfile.SavePayload` | src/pages/notary/Profile.tsx:98-108 | the update writes null for an empty commission expiry and the entered text otherwise, together with state and availability as entered |
| `NotaryProfile.ApplyPayload` | src/pages/notary/Profile.tsx:96-109 | the update never changes the row's user or email |
| `NotaryProfile.Save` | src/pages/notary/Profile.tsx:93-111 | without a user, or on a store error, nothing changes; otherwise only the user's own row is updated, and only if it exists |
| `NotaryProfile.SaveKeepsKeying` | src/pages/notary/Profile.tsx:109 | saving keeps every row under its own user and keeps every email |
| `NotaryProfile.SaveThenFetch` | src/pages/notary/Profile.tsx:78-108 | saving and reloading gives back the form with the stored email, and gives it back exactly when the state was not left empty |
| `NotaryProfile.DefaultSurvivesRoundTrip` | src/pages/notary/Profile.tsx:44-55 | the initial form saved and reloaded comes back unchanged except for the stored email |
| `Nav.IndexFrom` | src/components/layout/Header.tsx:21 | the result is the first occurrence at or after the start position, or none exists |
| `Nav.IndexOf` | src/components/layout/Header.tsx:21 | the result is the first occurrence of the pattern, or none exists |
| `Nav.ReplaceFirst` | src/components/layout/Header.tsx:21 | only the first occurrence is replaced, and text without one is unchanged |
| `Nav.HomeActiveExactly` | src/components/layout/Header.tsx:20 | the Home link is active exactly on "/" |
| `Nav.AnchorRewrite` | src/components/layout/Header.tsx:21 | an anchor link "/#x" is compared as "/x" |
| `Nav.NoHashNoAnchor` | src/components/layout/Header.tsx:21 | a link with no '#' is left as it is by the rewrite |
| `Nav.PlainLinkActive` | src/components/layout/Header.tsx:19-22 | a link with no "/#" is active exactly on the paths it is a prefix of |
| `Nav.NavigationLinksActive` | src/components/layout/Header.tsx:12-22 | Services is active exactly under "/services" and About exactly under "/about"; Book Now is active under "/book", "/bookings" included |
| `Nav.OnlyHomeActiveOnRoot` | src/components/layout/Header.tsx:12-22 | on "/" the Home link alone is active |
| `Nav.PortalLink` | src/components/layout/Header.tsx:70-72 | a signed-in user gets "Notary Portal" to the jobs board; anyone else gets "Notary Login" to the sign-in page |

## Left out

- Network and database I/O, loading and saving flags, toasts, and the sidebar and mobile-menu toggles are not modelled. Store calls are pure functions. Only the profile save (`NotaryProfile.Save`) and the claim message (`JobViews.ClaimMessage` and `JobViews.ClaimMessageAsWritten`) take the store's error as a parameter.
- A failed read is not modelled. `OpenJobs`, `MyJobs` and `Fetch` always succeed. In the pages, a failed jobs query keeps the list already shown, and a failed profile read keeps the form as it was.
- Schema.InsertSessionLog: an insert's own `id` and `created_at` are not modelled. The new row always takes a fresh id and `now`.
- Row-level security and the access policies are not modelled. Neither are the `updated_at` triggers or the database's own column defaults, beyond `status` defaulting to `open` and an omitted job id or timestamp being filled in on insert.
- Latitude and longitude are left out. They are floating-point values used only by the map view.
- Money is modelled in integer cents. `toFixed(2)` formatting and date formatting (`toLocaleDateString`) are not modelled.
- Fractional miles are not modelled. The listed entries all have whole miles, and the add dialogs record nothing, so no fractional value can arise on the page.
- JobViews.ServiceTypeLabel: the label table is a plain JavaScript object, so a word such as `constructor` would find an inherited property rather than fall back to itself. The model reads the table as a map of its six keys only; the column holds `notarial_act` words, so such words cannot reach the lookup.
- Case mapping covers ASCII letters only. Every name the pages lower-case or capitalise is ASCII.
- Booking.Step: the calendar's `date < new Date()` compares instants. The model compares opaque times, so "today before now" is not modelled separately.
- Booking.Step: the "Return Home" link and the upload button on the review card only navigate or do nothing, so they are left out.
- The admin dashboard, the journal page, the home page sections, the pricing page, the authentication context and the assistant proxy are not part of this model. None of them holds logic beyond display.
- The search box and act-type filter in the session logger are not wired to the list, so there is nothing to model.

## Findings

| source | as written | input that shows it | evidently intended | confidence | as-written member | corrected member |
|---|---|---|---|---|---|---|
| src/pages/notary/JobBoard.tsx:100-121 | the claim result is judged by the store's `error` alone, and an update whose `status = open` filter matches no row returns no error | notary A claims an open job; notary B, whose board is stale, then claims the same job: B's update matches nothing and B is told "Job claimed!" | report success only when the conditional update matched the row | not executed | `JobViews.ClaimMessageAsWritten`, with the counterexample `JobViews.LostRaceReportedAsClaimed` | `JobViews.ClaimMessage`, with `JobViews.ClaimMessageTellsTheTruth` and `JobViews.ClaimMessageRaceOutcome` |

=== FILE: booking.dfy ===
/**
 The public booking wizard: a four-step form (service and date, contact
 and location, review, confirmation) whose two Continue buttons are
 enabled only when the current step's required fields are filled in.
 Dates are opaque instants (`Schema.Time`), compared with the current
 instant the way the calendar's `disabled` callback compares them.
 */
module Booking {
  import opened Common
  import opened Schema

  /** The time slots offered by the time select. */
  const TimeSlots: seq<string> := [
    "9:00 AM", "10:00 AM", "11:00 AM", "12:00 PM", "1:00 PM",
    "2:00 PM", "3:00 PM", "4:00 PM", "5:00 PM", "6:00 PM"
  ]

  /** A service option: the select value, its label and its advertised price. */
  datatype ServiceOption = ServiceOption(value: string, caption: string, price: string)

  const ServiceTypes: seq<ServiceOption> := [
    ServiceOption("general", "General Notary", "$25"),
    ServiceOption("loan", "Loan Signing", "$150+"),
    ServiceOption("ron", "Remote Online Notary", "$50")
  ]

  // ---------------------------------------------------------------------
  // The form
  // ---------------------------------------------------------------------

  datatype Field = ServiceType | SlotTime | Name | Email | Phone | Address | City | Notes

  datatype Form = Form(
    serviceType: string,
    time: string,
    name: string,
    email: string,
    phone: string,
    address: string,
    city: string,
    notes: string)

  /** Every field starts empty. */
  const EmptyForm := Form("", "", "", "", "", "", "", "")

  function Get(f: Form, field: Field): string {
    match field
    case ServiceType => f.serviceType
    case SlotTime => f.time
    case Name => f.name
    case Email => f.email
    case Phone => f.phone
    case Address => f.address
    case City => f.city
    case Notes => f.notes
  }

  /** `handleInputChange(field, value)`: replaces one field and keeps the others. */
  function Set(f: Form, field: Field, v: string): (g: Form)
    ensures Get(g, field) == v
    ensures forall other: Field :: other != field ==> Get(g, other) == Get(f, other)
  {
    match field
    case ServiceType => f.(serviceType := v)
    case SlotTime => f.(time := v)
    case Name => f.(name := v)
    case Email => f.(email := v)
    case Phone => f.(phone := v)
    case Address => f.(address := v)
    case City => f.(city := v)
    case Notes => f.(notes := v)
  }

  /** The step whose card renders the control editing `field`. */
  function FieldStep(field: Field): (s: nat)
    ensures s == 1 || s == 2
    ensures s == 1 <==> field == ServiceType || field == SlotTime
  {
    match field
    case ServiceType => 1
    case SlotTime => 1
    case _ => 2
  }

  /**
   A value the field's control can produce: the two selects emit only the
   values of their items; the text inputs emit any text.
   */
  predicate Emittable(field: Field, v: string) {
    match field
    case ServiceType => exists i :: 0 <= i < |ServiceTypes| && ServiceTypes[i].value == v
    case SlotTime => v in TimeSlots
    case _ => true
  }

  /** Service type, time and date: what Continue on step 1 waits for. */
  predicate ScheduleComplete(f: Form, date: Option<Time>) {
    f.serviceType != "" && f.time != "" && date.Some?
  }

  /** Name, email, phone and address: what Continue on step 2 waits for (city and notes are optional). */
  predicate ContactComplete(f: Form) {
    f.name != "" && f.email != "" && f.phone != "" && f.address != ""
  }

  // ---------------------------------------------------------------------
  // The wizard
  // ---------------------------------------------------------------------

  datatype Wizard = Wizard(step: nat, date: Option<Time>, form: Form)

  const Init := Wizard(1, None, EmptyForm)

  datatype Event =
    | Edit(field: Field, v: string)
    | SelectDate(d: Option<Time>, now: Time)
    | Continue
    | ContinueContact
    | Back
    | Submit

  /** The calendar disables every day before the current instant. */
  predicate DateDisabled(d: Time, now: Time) {
    d < now
  }

  /**
   One user action. A control that is not rendered on the current step, a
   disabled button and a disabled day do nothing.
   */
  function Step(w: Wizard, e: Event): (r: Wizard)
    ensures r.step != w.step ==> e.Continue? || e.ContinueContact? || e.Back? || e.Submit?
    ensures e.Continue? && w.step == 1 ==> (r.step == 2 <==> ScheduleComplete(w.form, w.date))
    ensures e.ContinueContact? && w.step == 2 ==> (r.step == 3 <==> ContactComplete(w.form))
    ensures e.Submit? ==> (r.step == 4 <==> w.step == 3 || w.step == 4)
    ensures e.Back? ==> r.step == (if w.step == 2 || w.step == 3 then w.step - 1 else w.step)
    ensures !e.Back? && r.step != w.step ==> r.step == w.step + 1
    ensures r.date != w.date ==> e.SelectDate? && w.step == 1 && (e.d.None? || !DateDisabled(e.d.value, e.now))
    ensures r.form != w.form ==> e.Edit? && FieldStep(e.field) == w.step
    ensures w.step == 4 ==> r == w
    ensures e.Edit? ==>
      r == (if w.step == FieldStep(e.field) && Emittable(e.field, e.v)
            then w.(form := Set(w.form, e.field, e.v)) else w)
    ensures e.SelectDate? ==>
      r == (if w.step == 1 && (e.d.None? || !DateDisabled(e.d.value, e.now)) then w.(date := e.d) else w)
  {
    match e
    case Edit(field, v) =>
      if w.step == FieldStep(field) && Emittable(field, v) then w.(form := Set(w.form, field, v)) else w
    case SelectDate(d, now) =>
      if w.step == 1 && (d.None? || !DateDisabled(d.value, now)) then w.(date := d) else w
    case Continue =>
      if w.step == 1 && ScheduleComplete(w.form, w.date) then w.(step := 2) else w
    case ContinueContact =>
      if w.step == 2 && ContactComplete(w.form) then w.(step := 3) else w
    case Back =>
      if w.step == 2 then w.(step := 1)
      else if w.step == 3 then w.(step := 2)
      else w
    case Submit =>
      if w.step == 3 then w.(step := 4) else w
  }

  function Run(w: Wizard, es: seq<Event>): Wizard
    decreases |es|
  {
    if |es| == 0 then w else Run(Step(w, es[0]), es[1..])
  }

  /**
   What every reachable wizard satisfies: it is on one of the four steps,
   the selects hold nothing or one of their items, and each step past the
   first has everything the earlier steps' buttons waited for.
   */
  predicate Consistent(w: Wizard) {
    && 1 <= w.step <= 4
    && (w.form.serviceType == "" || Emittable(ServiceType, w.form.serviceType))
    && (w.form.time == "" || w.form.time in TimeSlots)
    && (w.step >= 2 ==> ScheduleComplete(w.form, w.date))
    && (w.step >= 3 ==> ContactComplete(w.form))
  }

  lemma InitConsistent()
    ensures Consistent(Init) && Init.step == 1
  {
  }

  /** Every action keeps the wizard consistent. */
  lemma StepKeepsConsistent(w: Wizard, e: Event)
    requires Consistent(w)
    ensures Consistent(Step(w, e))
  {
  }

  /** Any sequence of actions from the start leaves the wizard consistent. */
  lemma {:induction false} RunKeepsConsistent(w: Wizard, es: seq<Event>)
    requires Consistent(w)
    ensures Consistent(Run(w, es))
    decreases |es|
  {
    if |es| > 0 {
      StepKeepsConsistent(w, es[0]);
      RunKeepsConsistent(Step(w, es[0]), es[1..]);
    }
  }

  /** `options.find(s => s.value === value)`: the first option with that value. */
  function FindService(options: seq<ServiceOption>, value: string): (r: Option<nat>)
    ensures r.Some? ==> r.value < |options| && options[r.value].value == value
    ensures r.Some? ==> forall j :: 0 <= j < r.value ==> options[j].value != value
    ensures r.None? ==> forall j :: 0 <= j < |options| ==> options[j].value != value
    decreases |options|
  {
    if |options| == 0 then None
    else if options[0].value == value then Some(0)
    else match FindService(options[1..], value)
      case None => None
      case Some(k) => Some(k + 1)
  }

  /** The review card's service line: the label of the chosen option, if any. */
  function ReviewServiceLabel(value: string): (r: Option<string>)
    ensures r.Some? <==> Emittable(ServiceType, value)
  {
    match FindService(ServiceTypes, value)
    case None => None
    case Some(k) => Some(ServiceTypes[k].caption)
  }

  /** The three service values show their own labels; anything else shows nothing. */
  lemma ReviewLabels(value: string)
    ensures ReviewServiceLabel("general") == Some("General Notary")
    ensures ReviewServiceLabel("loan") == Some("Loan Signing")
    ensures ReviewServiceLabel("ron") == Some("Remote Online Notary")
    ensures value != "general" && value != "loan" && value != "ron" ==> ReviewServiceLabel(value) == None
  {
  }

  /**
   Whatever the user did, a submitted request (or one under review) has a
   service with a label, a listed time slot, a date, and the four contact
   fields; and the first page of the wizard is the only way in.
   */
  lemma {:induction false} SubmittedRequestIsComplete(es: seq<Event>)
    ensures var w := Run(Init, es);
      w.step >= 3 ==>
        && ReviewServiceLabel(w.form.serviceType).Some?
        && w.form.time in TimeSlots
        && w.date.Some?
        && ContactComplete(w.form)
  {
    RunKeepsConsistent(Init, es);
  }

  /** Once submitted the wizard stays on the confirmation card. */
  lemma {:induction false} ConfirmationIsFinal(w: Wizard, es: seq<Event>)
    requires w.step == 4
    ensures Run(w, es) == w
    decreases |es|
  {
    if |es| > 0 {
      ConfirmationIsFinal(Step(w, es[0]), es[1..]);
    }
  }

  /**
   The shortest way through: choose a service, a time and an allowed
   date, continue, fill in the contact fields, go on, and submit.
   */
  lemma HappyPath(d: Time, now: Time)
    requires !DateDisabled(d, now)
    ensures Run(Init, [
      Edit(ServiceType, "general"), Edit(SlotTime, "9:00 AM"), SelectDate(Some(d), now), Continue,
      Edit(Name, "A"), Edit(Email, "a@b"), Edit(Phone, "1"), Edit(Address, "1 Main"), ContinueContact,
      Submit]).step == 4
  {
    assert Emittable(ServiceType, "general") by { assert ServiceTypes[0].value == "general"; }
    var es := [
      Edit(ServiceType, "general"), Edit(SlotTime, "9:00 AM"), SelectDate(Some(d), now), Continue,
      Edit(Name, "A"), Edit(Email, "a@b"), Edit(Phone, "1"), Edit(Address, "1 Main"), ContinueContact,
      Submit];
    var w1 := Step(Init, es[0]);
    assert w1.form.serviceType == "general";
    var w2 := Step(w1, es[1]);
    var w3 := Step(w2, es[2]);
    var w4 := Step(w3, es[3]);
    assert w4.step == 2;
    var w5 := Step(w4, es[4]);
    var w6 := Step(w5, es[5]);
    var w7 := Step(w6, es[6]);
    var w8 := Step(w7, es[7]);
    var w9 := Step(w8, es[8]);
    assert w9.step == 3;
    var w10 := Step(w9, es[9]);
    assert w10.step == 4;
    assert Run(Init, es) == Run(w1, es[1..]);
    assert Run(w1, es[1..]) == Run(w2, es[2..]);
    assert Run(w2, es[2..]) == Run(w3, es[3..]);
    assert Run(w3, es[3..]) == Run(w4, es[4..]);
    assert Run(w4, es[4..]) == Run(w5, es[5..]);
    assert Run(w5, es[5..]) == Run(w6, es[6..]);
    assert Run(w6, es[6..]) == Run(w7, es[7..]);
    assert Run(w7, es[7..]) == Run(w8, es[8..]);
    assert Run(w8, es[8..]) == Run(w9, es[9..]);
    assert Run(w9, es[9..]) == Run(w10, es[10..]);
  }

  // ---------------------------------------------------------------------
  // Progress indicator
  // ---------------------------------------------------------------------

  /** How circle `s` of the three progress circles is drawn. */
  datatype Circle = Plain | Highlighted | Checked

  function CircleAt(step: nat, s: nat): (c: Circle)
    ensures c != Plain <==> step >= s
    ensures c == Checked <==> step > s
  {
    if step > s then Checked else if step >= s then Highlighted else Plain
  }

  /** The bar after circle `s` is filled once the wizard is past step `s`. */
  predicate ConnectorFilled(step: nat, s: nat) {
    step > s
  }

  /**
   The indicator shows the wizard's step: exactly the circles up to the
   current step are coloured, the current one alone without a tick (none
   once submitted), and a bar is filled exactly when the circle before it
   is ticked.
   */
  lemma ProgressShowsStep(step: nat)
    requires 1 <= step <= 4
    ensures forall s :: 1 <= s <= 3 ==> (CircleAt(step, s) != Plain <==> s <= step)
    ensures forall s :: 1 <= s <= 3 ==> (CircleAt(step, s) == Highlighted <==> s == step)
    ensures forall s :: 1 <= s < 3 ==> (ConnectorFilled(step, s) <==> CircleAt(step, s) == Checked)
    ensures step == 4 ==> forall s :: 1 <= s <= 3 ==> CircleAt(step, s) == Checked
  {
  }
}

=== FILE: common.dfy ===
/**
 Small shared vocabulary: an optional value (the database's nullable column,
 JavaScript's `undefined`), ASCII case mapping, and prefix tests on strings.
 */
module Common {

  /** A value that may be absent: a nullable column or a missing key. */
  datatype Option<+T> = None | Some(value: T) {

    /** The value, or `default` when absent (JavaScript's `x ?? default`). */
    function GetOr(default: T): T {
      match this
      case Some(v) => v
      case None => default
    }
  }

  predicate IsAsciiLower(c: char) {
    'a' <= c <= 'z'
  }

  predicate IsAsciiUpper(c: char) {
    'A' <= c <= 'Z'
  }

  /** `toUpperCase` restricted to ASCII letters; every other character is kept. */
  function UpperChar(c: char): (r: char)
    ensures IsAsciiLower(c) ==> IsAsciiUpper(r) && r as int == c as int - 32
    ensures !IsAsciiLower(c) ==> r == c
  {
    if IsAsciiLower(c) then (c as int - 32) as char else c
  }

  /** `toLowerCase` restricted to ASCII letters; every other character is kept. */
  function LowerChar(c: char): (r: char)
    ensures IsAsciiUpper(c) ==> IsAsciiLower(r) && r as int == c as int + 32
    ensures !IsAsciiUpper(c) ==> r == c
  {
    if IsAsciiUpper(c) then (c as int + 32) as char else c
  }

  /** `s.toLowerCase()` for ASCII text. */
  function Lower(s: string): (r: string)
    ensures |r| == |s|
    ensures forall i :: 0 <= i < |s| ==> r[i] == LowerChar(s[i])
  {
    if |s| == 0 then "" else [LowerChar(s[0])] + Lower(s[1..])
  }

  /** `s.startsWith(p)`. */
  predicate StartsWith(s: string, p: string) {
    |p| <= |s| && s[..|p|] == p
  }

  /** A sequence holds no element twice. */
  predicate Distinct<T(==)>(xs: seq<T>) {
    forall i, j :: 0 <= i < j < |xs| ==> xs[i] != xs[j]
  }

  /** The sum of a sequence of integers, first element first. */
  function Sum(xs: seq<int>): int
    decreases |xs|
  {
    if |xs| == 0 then 0 else xs[0] + Sum(xs[1..])
  }

  /** Summing a concatenation sums the parts; in particular appending `x` adds exactly `x`. */
  lemma {:induction false} SumAppend(xs: seq<int>, ys: seq<int>)
    ensures Sum(xs + ys) == Sum(xs) + Sum(ys)
    decreases |xs|
  {
    if |xs| > 0 {
      assert (xs + ys)[1..] == xs[1..] + ys;
      SumAppend(xs[1..], ys);
    } else {
      assert xs + ys == ys;
    }
  }

  /** One step of a left-to-right running total: the next prefix adds the next element. */
  lemma SumPrefixStep(xs: seq<int>, i: nat)
    requires i < |xs|
    ensures Sum(xs[..i + 1]) == Sum(xs[..i]) + xs[i]
  {
    assert xs[..i + 1] == xs[..i] + [xs[i]];
    SumAppend(xs[..i], [xs[i]]);
  }

  /** Summing two sequences element by element sums their sums. */
  lemma {:induction false} SumPointwise(a: seq<int>, b: seq<int>, c: seq<int>)
    requires |a| == |b| == |c|
    requires forall i :: 0 <= i < |a| ==> a[i] == b[i] + c[i]
    ensures Sum(a) == Sum(b) + Sum(c)
    decreases |a|
  {
    if |a| > 0 {
      SumPointwise(a[1..], b[1..], c[1..]);
    }
  }

  /** `Lower(s)` is the text whose every character is the lower-cased one of `s`. */
  lemma LowerIs(s: string, t: string)
    requires |s| == |t| && forall i :: 0 <= i < |s| ==> t[i] == LowerChar(s[i])
    ensures Lower(s) == t
  {
  }
}

=== FILE: expenses.dfy ===
/**
 The admin expenses page: mileage entries valued at a per-mile rate,
 expense entries with a category, and the three totals shown above the
 lists. Money is integer cents, distances whole miles; the 0.67 $/mile
 rate is 67 cents.
 */
module Expenses {
  import opened Common

  /** The IRS standard mileage rate the page uses, in cents per mile. */
  const MileageRateCents: nat := 67

  datatype MileageEntry = MileageEntry(
    id: nat,
    date: string,
    purpose: string,
    startLocation: string,
    endLocation: string,
    miles: nat,
    rateCents: nat)

  datatype Expense = Expense(
    id: nat,
    date: string,
    category: string,
    description: string,
    amountCents: nat,
    receipt: bool)

  const SampleMileage: seq<MileageEntry> := [
    MileageEntry(1, "2024-01-15", "Loan Signing - John Smith", "Office", "123 Main St, Houston", 24, 67),
    MileageEntry(2, "2024-01-15", "General Notary - Sarah Johnson", "123 Main St, Houston", "456 Oak Ave, Houston", 12, 67),
    MileageEntry(3, "2024-01-14", "Loan Signing - Michael Brown", "Office", "789 Pine Rd, Houston", 31, 67)
  ]

  const SampleExpenses: seq<Expense> := [
    Expense(1, "2024-01-12", "Supplies", "Notary stamps and ink", 4599, true),
    Expense(2, "2024-01-10", "Software", "Document signing platform subscription", 2999, true),
    Expense(3, "2024-01-05", "Marketing", "Business cards printing", 8900, true)
  ]

  /** The value shown beside one mileage entry: its miles at its rate. */
  function MileageValue(e: MileageEntry): (v: nat)
    ensures e.miles == 0 || e.rateCents == 0 ==> v == 0
    ensures e.rateCents == MileageRateCents ==> v == 67 * e.miles
  {
    e.miles * e.rateCents
  }

  // ---------------------------------------------------------------------
  // Per-entry columns
  // ---------------------------------------------------------------------

  function Miles(es: seq<MileageEntry>): (r: seq<int>)
    ensures |r| == |es| && forall i :: 0 <= i < |es| ==> r[i] == es[i].miles
  {
    seq(|es|, i requires 0 <= i < |es| => es[i].miles)
  }

  function MileageValues(es: seq<MileageEntry>): (r: seq<int>)
    ensures |r| == |es| && forall i :: 0 <= i < |es| ==> r[i] == MileageValue(es[i])
  {
    seq(|es|, i requires 0 <= i < |es| => MileageValue(es[i]))
  }

  function Amounts(xs: seq<Expense>): (r: seq<int>)
    ensures |r| == |xs| && forall i :: 0 <= i < |xs| ==> r[i] == xs[i].amountCents
  {
    seq(|xs|, i requires 0 <= i < |xs| => xs[i].amountCents)
  }

  // ---------------------------------------------------------------------
  // Totals
  // ---------------------------------------------------------------------

  /**
   The three figures: `totalMiles`, `totalMileageValue` (each entry's miles
   times its rate, summed) and `totalExpenses`, each a left-to-right
   running total. The mileage value is the sum of the values shown beside
   the entries.
   */
  method Totals(mileage: seq<MileageEntry>, expenses: seq<Expense>)
    returns (totalMiles: int, totalMileageValue: int, totalExpenses: int)
    ensures totalMiles == Sum(Miles(mileage))
    ensures totalMileageValue == Sum(MileageValues(mileage))
    ensures totalExpenses == Sum(Amounts(expenses))
  {
    totalMiles := 0;
    totalMileageValue := 0;
    var i := 0;
    while i < |mileage|
      invariant 0 <= i <= |mileage|
      invariant totalMiles == Sum(Miles(mileage)[..i])
      invariant totalMileageValue == Sum(MileageValues(mileage)[..i])
    {
      SumPrefixStep(Miles(mileage), i);
      SumPrefixStep(MileageValues(mileage), i);
      totalMiles := totalMiles + mileage[i].miles;
      totalMileageValue := totalMileageValue + mileage[i].miles * mileage[i].rateCents;
      i := i + 1;
    }
    assert Miles(mileage)[..|mileage|] == Miles(mileage);
    assert MileageValues(mileage)[..|mileage|] == MileageValues(mileage);

    totalExpenses := 0;
    var j := 0;
    while j < |expenses|
      invariant 0 <= j <= |expenses|
      invariant totalExpenses == Sum(Amounts(expenses)[..j])
    {
      SumPrefixStep(Amounts(expenses), j);
      totalExpenses := totalExpenses + expenses[j].amountCents;
      j := j + 1;
    }
    assert Amounts(expenses)[..|expenses|] == Amounts(expenses);
  }

  predicate AllAtStandardRate(es: seq<MileageEntry>) {
    forall i :: 0 <= i < |es| ==> es[i].rateCents == MileageRateCents
  }

  /**
   When every entry is at the standard rate, the mileage value is the
   total miles times 67 cents.
   */
  lemma {:induction false} StandardRateValue(es: seq<MileageEntry>)
    requires AllAtStandardRate(es)
    ensures Sum(MileageValues(es)) == MileageRateCents * Sum(Miles(es))
    decreases |es|
  {
    if |es| > 0 {
      var tail := es[1..];
      assert AllAtStandardRate(tail) by {
        forall i | 0 <= i < |tail| ensures tail[i].rateCents == MileageRateCents {
          assert tail[i] == es[i + 1];
        }
      }
      StandardRateValue(tail);
      assert MileageValues(es)[1..] == MileageValues(tail);
      assert Miles(es)[1..] == Miles(tail);
      var m := es[0].miles;
      var rest := Sum(Miles(tail));
      assert Sum(MileageValues(es)) == 67 * m + 67 * rest;
      assert Sum(Miles(es)) == m + rest;
      assert 67 * m + 67 * rest == 67 * (m + rest);
    } else {
      assert MileageValues(es) == [] && Miles(es) == [];
    }
  }

  /**
   Adding a mileage entry raises total miles by its miles and the mileage
   value by its own value; adding an expense raises the expense total by its
   amount.
   */
  lemma AppendRaisesTotals(es: seq<MileageEntry>, e: MileageEntry, xs: seq<Expense>, x: Expense)
    ensures Sum(Miles(es + [e])) == Sum(Miles(es)) + e.miles
    ensures Sum(MileageValues(es + [e])) == Sum(MileageValues(es)) + MileageValue(e)
    ensures Sum(Amounts(xs + [x])) == Sum(Amounts(xs)) + x.amountCents
  {
    assert Miles(es + [e]) == Miles(es) + [e.miles];
    assert MileageValues(es + [e]) == MileageValues(es) + [MileageValue(e)];
    assert Amounts(xs + [x]) == Amounts(xs) + [x.amountCents];
    SumAppend(Miles(es), [e.miles]);
    SumAppend(MileageValues(es), [MileageValue(e)]);
    SumAppend(Amounts(xs), [x.amountCents]);
  }

  /**
   The listed figures: 67 miles worth $44.89 at the standard rate, and
   $164.98 of expenses.
   */
  lemma SampleFigures()
    ensures AllAtStandardRate(SampleMileage)
    ensures Sum(Miles(SampleMileage)) == 67
    ensures Sum(MileageValues(SampleMileage)) == 4489
    ensures Sum(Amounts(SampleExpenses)) == 16498
  {
    assert Miles(SampleMileage) == [24, 12, 31];
    assert Sum([31]) == 31;
    StandardRateValue(SampleMileage);
    assert Amounts(SampleExpenses) == [4599, 2999, 8900];
    assert Sum([8900]) == 8900;
  }

  // ---------------------------------------------------------------------
  // Categories
  // ---------------------------------------------------------------------

  /** The expense categories; an option's value is `Lower(name)`. */
  const ExpenseCategories: seq<string> :=
    ["Supplies", "Software", "Marketing", "Insurance", "Education", "Professional Fees", "Other"]

  /**
   Seven categories, no two alike, and no two whose select values are alike
   (so an option's value identifies its category); every listed expense
   has one of them.
   */
  lemma CategoriesAreDistinct()
    ensures |ExpenseCategories| == 7 && Distinct(ExpenseCategories)
    ensures forall i, j :: 0 <= i < j < |ExpenseCategories| ==>
      Lower(ExpenseCategories[i]) != Lower(ExpenseCategories[j])
    ensures forall i :: 0 <= i < |SampleExpenses| ==> SampleExpenses[i].category in ExpenseCategories
  {
    forall i, j | 0 <= i < j < |ExpenseCategories|
      ensures Lower(ExpenseCategories[i]) != Lower(ExpenseCategories[j])
    {
      var a := ExpenseCategories[i];
      var b := ExpenseCategories[j];
      LowerKeepsDifference(a, b);
    }
  }

  /**
   Two category names that differ in length or in the lower-cased form of
   their first two letters keep differing once lower-cased.
   */
  lemma LowerKeepsDifference(a: string, b: string)
    requires a in ExpenseCategories && b in ExpenseCategories && a != b
    ensures Lower(a) != Lower(b)
  {
    if |a| == |b| {
      assert a[..2] != b[..2] || a[0] != b[0] || a[1] != b[1];
      assert Lower(a)[0] == LowerChar(a[0]) && Lower(a)[1] == LowerChar(a[1]);
      assert Lower(b)[0] == LowerChar(b[0]) && Lower(b)[1] == LowerChar(b[1]);
    }
  }

  // ---------------------------------------------------------------------
  // Dialogs
  // ---------------------------------------------------------------------

  /**
   The page state that its add buttons touch: the two lists and whether
   each dialog is open.
   */
  datatype Page = Page(
    mileage: seq<MileageEntry>,
    expenses: seq<Expense>,
    mileageDialogOpen: bool,
    expenseDialogOpen: bool)

  /** "Add Entry" in the mileage dialog: it closes that dialog and records nothing. */
  function AddMileage(p: Page): (q: Page)
    ensures !q.mileageDialogOpen && q.expenseDialogOpen == p.expenseDialogOpen
    ensures q.mileage == p.mileage && q.expenses == p.expenses
  {
    p.(mileageDialogOpen := false)
  }

  /** "Add Expense" in the expense dialog: it closes that dialog and records nothing. */
  function AddExpense(p: Page): (q: Page)
    ensures !q.expenseDialogOpen && q.mileageDialogOpen == p.mileageDialogOpen
    ensures q.mileage == p.mileage && q.expenses == p.expenses
  {
    p.(expenseDialogOpen := false)
  }

  /**
   Whatever the dialogs were used for, the three figures above the lists
   stay what they were: the add handlers leave both lists untouched.
   */
  lemma AddingKeepsFigures(p: Page, presses: seq<bool>)
    ensures var q := PressAll(p, presses);
      && Sum(Miles(q.mileage)) == Sum(Miles(p.mileage))
      && Sum(MileageValues(q.mileage)) == Sum(MileageValues(p.mileage))
      && Sum(Amounts(q.expenses)) == Sum(Amounts(p.expenses))
  {
    PressAllKeepsLists(p, presses);
  }

  /** A run of add presses, `true` for the mileage dialog and `false` for the expense one. */
  function PressAll(p: Page, presses: seq<bool>): Page
    decreases |presses|
  {
    if |presses| == 0 then p
    else PressAll(if presses[0] then AddMileage(p) else AddExpense(p), presses[1..])
  }

  lemma {:induction false} PressAllKeepsLists(p: Page, presses: seq<bool>)
    ensures PressAll(p, presses).mileage == p.mileage
    ensures PressAll(p, presses).expenses == p.expenses
    decreases |presses|
  {
    if |presses| > 0 {
      PressAllKeepsLists(if presses[0] then AddMileage(p) else AddExpense(p), presses[1..]);
    }
  }
}

=== FILE: job_store.dfy ===
/**
 The `jobs` table as the notary pages use it: a map from job id to row,
 the conditional claim issued by the job board, the status update issued
 from "My Jobs", and the two sorted read queries. Every write is one atomic
 step on the map, and a race between two notaries is two sequential steps.
 */
module JobStore {
  import opened Common
  import opened Schema

  type Store = map<JobId, Job>

  /** Every row is stored under its own primary key. */
  predicate WellKeyed(store: Store) {
    forall k :: k in store ==> store[k].id == k
  }

  /** Every row satisfies the job lifecycle invariant. */
  predicate AllLifecycleOk(store: Store) {
    forall k :: k in store ==> LifecycleOk(store[k])
  }

  /**
   The result of one `update ... where ...`: the table afterwards, and
   whether the filter matched the row (one row affected rather than none).
   The store reports no error in either case.
   */
  datatype WriteOutcome = WriteOutcome(store: Store, matched: bool)

  /** Two rows agree on every column an update of status leaves alone. */
  predicate SameDetails(a: Job, b: Job) {
    && a.id == b.id && a.address == b.address && a.city == b.city
    && a.clientEmail == b.clientEmail && a.clientName == b.clientName && a.clientPhone == b.clientPhone
    && a.createdAt == b.createdAt && a.createdBy == b.createdBy
    && a.fee == b.fee && a.notes == b.notes
    && a.scheduledDate == b.scheduledDate && a.scheduledTime == b.scheduledTime
    && a.serviceType == b.serviceType && a.state == b.state
    && a.travelFee == b.travelFee && a.updatedAt == b.updatedAt && a.zipCode == b.zipCode
  }

  /** Only the row under `jobId` may differ, and no row appears or disappears. */
  predicate OnlyRowChanged(before: Store, after: Store, jobId: JobId) {
    && after.Keys == before.Keys
    && forall k :: k in before && k != jobId ==> after[k] == before[k]
  }

  // ---------------------------------------------------------------------
  // Claim
  // ---------------------------------------------------------------------

  /**
   The job board's claim: `update jobs set claimed_by, status = 'claimed',
   claimed_at where id = jobId and status = 'open'`, evaluated atomically.
   It matches exactly when the job exists and is still open; a match
   records the claimant and the time, anything else leaves the table as it
   was.
   */
  function ConditionalClaim(store: Store, claimant: UserId, jobId: JobId, now: Time): (r: WriteOutcome)
    ensures r.matched <==> jobId in store && store[jobId].status == Open
    ensures !r.matched ==> r.store == store
    ensures OnlyRowChanged(store, r.store, jobId)
    ensures r.matched ==>
      && r.store[jobId].status == Claimed
      && r.store[jobId].claimedBy == Some(claimant)
      && r.store[jobId].claimedAt == Some(now)
      && r.store[jobId].completedAt == store[jobId].completedAt
      && SameDetails(store[jobId], r.store[jobId])
  {
    if jobId in store && store[jobId].status == Open then
      var j := store[jobId];
      WriteOutcome(store[jobId := j.(claimedBy := Some(claimant), status := Claimed, claimedAt := Some(now))], true)
    else
      WriteOutcome(store, false)
  }

  /**
   `claimJob` as the page calls it: without a signed-in user no request is
   sent at all (`None`); otherwise the conditional claim runs for that user.
   */
  function ClaimJob(store: Store, user: Option<UserId>, jobId: JobId, now: Time): (r: Option<WriteOutcome>)
    ensures r.None? <==> user.None?
    ensures r.Some? ==> (r.value.matched <==> jobId in store && store[jobId].status == Open)
    ensures r.Some? ==> OnlyRowChanged(store, r.value.store, jobId)
    ensures r.Some? && !r.value.matched ==> r.value.store == store
    ensures r.Some? && r.value.matched ==>
      && r.value.store[jobId].claimedBy == user
      && r.value.store[jobId].status == Claimed
      && r.value.store[jobId].claimedAt == Some(now)
      && r.value.store[jobId].completedAt == store[jobId].completedAt
      && SameDetails(store[jobId], r.value.store[jobId])
  {
    match user
    case None => None
    case Some(u) => Some(ConditionalClaim(store, u, jobId, now))
  }

  // ---------------------------------------------------------------------
  // Complete / cancel
  // ---------------------------------------------------------------------

  /** The two buttons on an active job. */
  datatype Resolution = Complete | Cancel

  function ResolutionStatus(res: Resolution): JobStatus {
    match res
    case Complete => Completed
    case Cancel => Cancelled
  }

  /**
   `updateJobStatus`: `update jobs set status = newStatus [, completed_at]
   where id = jobId`. The filter is the id alone, so the row's current
   status is not consulted; only completion stamps `completed_at`, and a
   cancellation leaves `claimed_by`, `claimed_at` and `completed_at` as
   they were.
   */
  function UpdateJobStatus(store: Store, jobId: JobId, res: Resolution, now: Time): (r: WriteOutcome)
    ensures r.matched <==> jobId in store
    ensures !r.matched ==> r.store == store
    ensures OnlyRowChanged(store, r.store, jobId)
    ensures r.matched ==>
      && r.store[jobId].status == ResolutionStatus(res)
      && r.store[jobId].claimedBy == store[jobId].claimedBy
      && r.store[jobId].claimedAt == store[jobId].claimedAt
      && SameDetails(store[jobId], r.store[jobId])
    ensures r.matched && res == Complete ==> r.store[jobId].completedAt == Some(now)
    ensures r.matched && res == Cancel ==> r.store[jobId].completedAt == store[jobId].completedAt
  {
    if jobId in store then
      var j := store[jobId];
      var j' := match res
        case Complete => j.(status := Completed, completedAt := Some(now))
        case Cancel => j.(status := Cancelled);
      WriteOutcome(store[jobId := j'], true)
    else
      WriteOutcome(store, false)
  }

  // ---------------------------------------------------------------------
  // Runs of writes
  // ---------------------------------------------------------------------

  /** One write a notary's page can issue. */
  datatype Write =
    | ClaimWrite(claimant: UserId, jobId: JobId, now: Time)
    | StatusWrite(jobId: JobId, res: Resolution, now: Time)

  function ApplyWrite(store: Store, w: Write): Store {
    match w
    case ClaimWrite(c, id, t) => ConditionalClaim(store, c, id, t).store
    case StatusWrite(id, res, t) => UpdateJobStatus(store, id, res, t).store
  }

  function ApplyWrites(store: Store, ws: seq<Write>): Store
    decreases |ws|
  {
    if |ws| == 0 then store else ApplyWrites(ApplyWrite(store, ws[0]), ws[1..])
  }

  /**
   Any run of writes keeps the set of job ids (jobs are never created or
   deleted from these pages), keeps rows under their own key, and never
   sends a job that has left `open` back to `open`.
   */
  lemma {:induction false} WritesKeepKeysAndNeverReopen(store: Store, ws: seq<Write>, jobId: JobId)
    requires WellKeyed(store)
    ensures ApplyWrites(store, ws).Keys == store.Keys
    ensures WellKeyed(ApplyWrites(store, ws))
    ensures jobId in store && store[jobId].status != Open ==> ApplyWrites(store, ws)[jobId].status != Open
    decreases |ws|
  {
    WritesKeepKeys(store, ws);
    if |ws| > 0 {
      var s1 := ApplyWrite(store, ws[0]);
      assert WellKeyed(s1);
      assert jobId in store && store[jobId].status != Open ==> s1[jobId].status != Open;
      WritesKeepKeysAndNeverReopen(s1, ws[1..], jobId);
    }
  }

  /**
   Whoever claims a job first keeps it: once `claimed_by` names a notary,
   no later claim by anyone, and no completion or cancellation, changes it.
   */
  lemma {:induction false} FirstClaimIsFinal(store: Store, ws: seq<Write>, jobId: JobId, owner: UserId)
    requires jobId in store && store[jobId].claimedBy == Some(owner) && store[jobId].status != Open
    ensures jobId in ApplyWrites(store, ws)
    ensures ApplyWrites(store, ws)[jobId].claimedBy == Some(owner)
    decreases |ws|
  {
    if |ws| > 0 {
      var s1 := ApplyWrite(store, ws[0]);
      assert jobId in s1 && s1[jobId].claimedBy == Some(owner) && s1[jobId].status != Open;
      FirstClaimIsFinal(s1, ws[1..], jobId, owner);
    }
  }

  /**
   Two notaries claim the same open job one after the other: the first
   matches and becomes the owner, the second matches nothing and changes
   nothing.
   */
  lemma SequentialClaimsFirstWins(store: Store, a: UserId, b: UserId, jobId: JobId, t1: Time, t2: Time)
    requires jobId in store && store[jobId].status == Open
    ensures ConditionalClaim(store, a, jobId, t1).matched
    ensures !ConditionalClaim(ConditionalClaim(store, a, jobId, t1).store, b, jobId, t2).matched
    ensures ConditionalClaim(ConditionalClaim(store, a, jobId, t1).store, b, jobId, t2).store
         == ConditionalClaim(store, a, jobId, t1).store
    ensures ConditionalClaim(ConditionalClaim(store, a, jobId, t1).store, b, jobId, t2).store[jobId].claimedBy == Some(a)
  {
  }

  /** A claim keeps every row's lifecycle invariant. */
  lemma ClaimKeepsLifecycle(store: Store, claimant: UserId, jobId: JobId, now: Time)
    requires AllLifecycleOk(store)
    ensures AllLifecycleOk(ConditionalClaim(store, claimant, jobId, now).store)
  {
    var r := ConditionalClaim(store, claimant, jobId, now);
    forall k | k in r.store ensures LifecycleOk(r.store[k]) {
      if k != jobId {
        assert r.store[k] == store[k];
      }
    }
  }

  /**
   Completing or cancelling keeps the lifecycle invariant when the job is
   `claimed`, the only state in which the page offers the two buttons.
   */
  lemma ResolveClaimedKeepsLifecycle(store: Store, jobId: JobId, res: Resolution, now: Time)
    requires AllLifecycleOk(store)
    requires jobId in store && store[jobId].status == Claimed
    ensures AllLifecycleOk(UpdateJobStatus(store, jobId, res, now).store)
    ensures UpdateJobStatus(store, jobId, res, now).store[jobId].status in {Completed, Cancelled}
  {
    var r := UpdateJobStatus(store, jobId, res, now);
    forall k | k in r.store ensures LifecycleOk(r.store[k]) {
      if k != jobId {
        assert r.store[k] == store[k];
      }
    }
  }

  /**
   The status update does not check the current status: a stale Cancel on
   a job that is already completed turns it into a cancelled job that still
   carries its completion time, and a Complete on a job nobody claimed marks
   it completed with no claimant.
   */
  lemma UnguardedUpdateIgnoresStatus(store: Store, jobId: JobId, now: Time)
    requires jobId in store && LifecycleOk(store[jobId])
    ensures store[jobId].status == Completed ==>
      && UpdateJobStatus(store, jobId, Cancel, now).store[jobId].status == Cancelled
      && UpdateJobStatus(store, jobId, Cancel, now).store[jobId].completedAt.Some?
      && !LifecycleOk(UpdateJobStatus(store, jobId, Cancel, now).store[jobId])
    ensures store[jobId].status == Open ==>
      && UpdateJobStatus(store, jobId, Complete, now).store[jobId].status == Completed
      && UpdateJobStatus(store, jobId, Complete, now).store[jobId].claimedBy.None?
      && !LifecycleOk(UpdateJobStatus(store, jobId, Complete, now).store[jobId])
  {
  }

  /**
   A `session_logs` table whose job references are valid stays valid under
   any run of job writes, since those writes neither create nor delete jobs.
   */
  lemma WritesKeepSessionJobRefs(store: Store, ws: seq<Write>, logs: seq<SessionLogRow>)
    requires JobRefsValid(logs, store.Keys)
    ensures JobRefsValid(logs, ApplyWrites(store, ws).Keys)
  {
    WritesKeepKeys(store, ws);
  }

  /** Job writes neither create nor delete jobs, whatever the run. */
  lemma {:induction false} WritesKeepKeys(store: Store, ws: seq<Write>)
    ensures ApplyWrites(store, ws).Keys == store.Keys
    decreases |ws|
  {
    if |ws| > 0 {
      WritesKeepKeys(ApplyWrite(store, ws[0]), ws[1..]);
    }
  }

  // ---------------------------------------------------------------------
  // Read queries
  // ---------------------------------------------------------------------

  /** The tabs of "My Jobs"; each names the status it lists. */
  datatype MyJobsTab = ActiveTab | CompletedTab | CancelledTab

  function TabStatus(tab: MyJobsTab): (s: JobStatus)
    ensures s != Open
  {
    match tab
    case ActiveTab => Claimed
    case CompletedTab => Completed
    case CancelledTab => Cancelled
  }

  /** The `where` clause of a read query. */
  datatype Filter =
    | OpenJobsFilter
    | MyJobsFilter(owner: UserId, status: JobStatus)

  predicate Matches(f: Filter, j: Job) {
    match f
    case OpenJobsFilter => j.status == Open
    case MyJobsFilter(owner, status) => j.claimedBy == Some(owner) && j.status == status
  }

  /** `order by scheduled_date asc`. */
  predicate SortedByDate(rows: seq<Job>) {
    forall i, j :: 0 <= i < j < |rows| ==> rows[i].scheduledDate <= rows[j].scheduledDate
  }

  predicate DistinctIds(rows: seq<Job>) {
    forall i, j :: 0 <= i < j < |rows| ==> rows[i].id != rows[j].id
  }

  /**
   The rows a query returns, for a given `where` clause: exactly the stored
   rows that match, each once, in scheduled-date order. Rows with equal
   dates may come in any order.
   */
  predicate QueryResult(store: Store, f: Filter, rows: seq<Job>) {
    && SortedByDate(rows)
    && DistinctIds(rows)
    && (forall x :: x in rows ==> x.id in store && store[x.id] == x && Matches(f, x))
    && (forall k :: k in store && Matches(f, store[k]) ==> store[k] in rows)
  }

  /** Places `j` after every row scheduled no later than it. */
  function InsertByDate(rows: seq<Job>, j: Job): (r: seq<Job>)
    ensures |r| == |rows| + 1
    ensures forall x :: x in r <==> x in rows || x == j
    decreases |rows|
  {
    if |rows| == 0 then [j]
    else if j.scheduledDate < rows[0].scheduledDate then [j] + rows
    else [rows[0]] + InsertByDate(rows[1..], j)
  }

  /** Inserting into a date-ordered result keeps it ordered. */
  lemma {:induction false} InsertByDateKeepsSorted(rows: seq<Job>, j: Job)
    requires SortedByDate(rows)
    ensures SortedByDate(InsertByDate(rows, j))
    decreases |rows|
  {
    var r := InsertByDate(rows, j);
    if |rows| == 0 {
    } else if j.scheduledDate < rows[0].scheduledDate {
      forall i, k | 0 <= i < k < |r| ensures r[i].scheduledDate <= r[k].scheduledDate {
        if i > 0 {
          assert r[i] == rows[i - 1] && r[k] == rows[k - 1];
        } else {
          assert r[k] == rows[k - 1];
        }
      }
    } else {
      var rest := InsertByDate(rows[1..], j);
      InsertByDateKeepsSorted(rows[1..], j);
      assert r == [rows[0]] + rest;
      forall i, k | 0 <= i < k < |r| ensures r[i].scheduledDate <= r[k].scheduledDate {
        if i > 0 {
          assert r[i] == rest[i - 1] && r[k] == rest[k - 1];
        } else {
          assert r[k] == rest[k - 1];
          assert rest[k - 1] in rest;
          if rest[k - 1] != j {
            var x := rest[k - 1];
            assert x in rows[1..];
            var m :| 0 <= m < |rows[1..]| && rows[1..][m] == x;
            assert rows[m + 1] == x;
          }
        }
      }
    }
  }

  /** Inserting a row whose id is new keeps the ids of a result distinct. */
  lemma {:induction false} InsertByDateKeepsDistinct(rows: seq<Job>, j: Job)
    requires DistinctIds(rows) && forall x :: x in rows ==> x.id != j.id
    ensures DistinctIds(InsertByDate(rows, j))
    decreases |rows|
  {
    var r := InsertByDate(rows, j);
    if |rows| == 0 {
    } else if j.scheduledDate < rows[0].scheduledDate {
      forall i, k | 0 <= i < k < |r| ensures r[i].id != r[k].id {
        if i > 0 {
          assert r[i] == rows[i - 1] && r[k] == rows[k - 1];
        } else {
          assert r[k] == rows[k - 1];
          assert rows[k - 1] in rows;
        }
      }
    } else {
      var tail := rows[1..];
      forall i, k | 0 <= i < k < |tail| ensures tail[i].id != tail[k].id {
        assert tail[i] == rows[i + 1] && tail[k] == rows[k + 1];
      }
      assert forall x :: x in tail ==> x in rows;
      var rest := InsertByDate(tail, j);
      InsertByDateKeepsDistinct(tail, j);
      assert r == [rows[0]] + rest;
      forall i, k | 0 <= i < k < |r| ensures r[i].id != r[k].id {
        if i > 0 {
          assert r[i] == rest[i - 1] && r[k] == rest[k - 1];
        } else {
          assert r[k] == rest[k - 1];
          assert rest[k - 1] in rest;
          if rest[k - 1] != j {
            var x := rest[k - 1];
            assert x in tail;
            var m :| 0 <= m < |tail| && tail[m] == x;
            assert rows[m + 1] == x;
          }
        }
      }
    }
  }

  /**
   Runs a read query: visits the table's keys one by one and inserts each
   matching row at its place in date order.
   */
  method SelectOrdered(store: Store, f: Filter) returns (rows: seq<Job>)
    requires WellKeyed(store)
    ensures QueryResult(store, f, rows)
  {
    var todo := store.Keys;
    rows := [];
    while todo != {}
      invariant todo <= store.Keys
      invariant SortedByDate(rows)
      invariant DistinctIds(rows)
      invariant forall x :: x in rows ==> x.id in store && x.id !in todo && store[x.id] == x && Matches(f, x)
      invariant forall k :: k in store && k !in todo && Matches(f, store[k]) ==> store[k] in rows
      decreases todo
    {
      var k :| k in todo;
      if Matches(f, store[k]) {
        InsertByDateKeepsSorted(rows, store[k]);
        InsertByDateKeepsDistinct(rows, store[k]);
        rows := InsertByDate(rows, store[k]);
      }
      todo := todo - {k};
    }
  }

  /** `fetchJobs`: the open jobs, earliest scheduled first. */
  method OpenJobs(store: Store) returns (rows: seq<Job>)
    requires WellKeyed(store)
    ensures forall x :: x in rows ==> x.status == Open
    ensures forall k :: k in store && store[k].status == Open ==> store[k] in rows
    ensures forall x :: x in rows ==> x.id in store && store[x.id] == x
    ensures SortedByDate(rows) && DistinctIds(rows)
  {
    rows := SelectOrdered(store, OpenJobsFilter);
  }

  /**
   `fetchMyJobs`: without a signed-in user no query is sent (`None`);
   otherwise the jobs this user claimed whose status is the tab's, earliest
   scheduled first.
   */
  method MyJobs(store: Store, user: Option<UserId>, tab: MyJobsTab) returns (rows: Option<seq<Job>>)
    requires WellKeyed(store)
    ensures rows.None? <==> user.None?
    ensures rows.Some? ==> forall x :: x in rows.value ==> x.claimedBy == user && x.status == TabStatus(tab)
    ensures rows.Some? ==> forall x :: x in rows.value ==> x.id in store && store[x.id] == x
    ensures rows.Some? ==>
      (forall k :: k in store && store[k].claimedBy == user && store[k].status == TabStatus(tab) ==> store[k] in rows.value)
    ensures rows.Some? ==> SortedByDate(rows.value) && DistinctIds(rows.value)
  {
    match user {
      case None =>
        rows := None;
      case Some(u) =>
        var r := SelectOrdered(store, MyJobsFilter(u, TabStatus(tab)));
        rows := Some(r);
    }
  }

  /**
   After a successful claim the job leaves the open-jobs result; nothing
   else in that result changes.
   */
  lemma ClaimedJobLeavesOpenList(store: Store, claimant: UserId, jobId: JobId, now: Time, k: JobId)
    requires jobId in store && store[jobId].status == Open
    requires k in store
    ensures var s := ConditionalClaim(store, claimant, jobId, now).store;
      Matches(OpenJobsFilter, s[k]) <==> k != jobId && Matches(OpenJobsFilter, store[k])
  {
  }

  /**
   Claim, then complete: the job shows on its claimant's completed tab and
   on no other notary's tabs, and not on the open list.
   */
  lemma ClaimThenCompleteScenario(store: Store, a: UserId, other: UserId, jobId: JobId, t1: Time, t2: Time)
    requires jobId in store && store[jobId].status == Open
    requires other != a
    ensures var s := UpdateJobStatus(ConditionalClaim(store, a, jobId, t1).store, jobId, Complete, t2).store;
      && Matches(MyJobsFilter(a, TabStatus(CompletedTab)), s[jobId])
      && s[jobId].completedAt == Some(t2)
      && !Matches(MyJobsFilter(a, TabStatus(ActiveTab)), s[jobId])
      && !Matches(MyJobsFilter(other, TabStatus(CompletedTab)), s[jobId])
      && !Matches(OpenJobsFilter, s[jobId])
  {
  }
}

=== FILE: job_views.dfy ===
/**
 What the notary pages show about a job: the service-type label, the
 capitalised status badge, the payout, which buttons a tab offers, and
 the message the job board shows after a claim.
 */
module JobViews {
  import opened Common
  import opened Schema
  import opened JobStore

  // ---------------------------------------------------------------------
  // Labels
  // ---------------------------------------------------------------------

  /** `serviceTypeLabels`, keyed by the wire spelling of `notarial_act`. */
  const ServiceTypeLabels: map<string, string> := map[
    "acknowledgment" := "Acknowledgment",
    "jurat" := "Jurat",
    "copy_certification" := "Copy Certification",
    "oath_affirmation" := "Oath/Affirmation",
    "signature_witnessing" := "Signature Witnessing",
    "loan_signing" := "Loan Signing"
  ]

  /**
   `serviceTypeLabels[w] || w`: the label when there is a non-empty one,
   otherwise the wire word itself.
   */
  function ServiceTypeLabel(w: string): (r: string)
    ensures w !in ServiceTypeLabels ==> r == w
    ensures r == w || (w in ServiceTypeLabels && r == ServiceTypeLabels[w])
  {
    if w in ServiceTypeLabels && ServiceTypeLabels[w] != "" then ServiceTypeLabels[w] else w
  }

  /** The label table has exactly the six `notarial_act` words as keys. */
  lemma LabelKeysAreActWords()
    ensures forall w :: w in ServiceTypeLabels <==> w in ActConstants
  {
    assert ServiceTypeLabels.Keys == set w | w in ActConstants;
  }

  /** The first letter of each label; no two acts share one. */
  function LabelInitial(a: NotarialAct): char {
    match a
    case Acknowledgment => 'A'
    case Jurat => 'J'
    case CopyCertification => 'C'
    case OathAffirmation => 'O'
    case SignatureWitnessing => 'S'
    case LoanSigning => 'L'
  }

  /** The label of one act: found in the table, not empty, and starting with the act's initial. */
  lemma ActLabelFound(a: NotarialAct)
    ensures ActName(a) in ServiceTypeLabels && ServiceTypeLabels[ActName(a)] != ""
    ensures ServiceTypeLabel(ActName(a)) == ServiceTypeLabels[ActName(a)]
    ensures ServiceTypeLabels[ActName(a)][0] == LabelInitial(a)
  {
    match a
    case Acknowledgment =>
    case Jurat =>
    case CopyCertification =>
    case OathAffirmation =>
    case SignatureWitnessing =>
    case LoanSigning =>
  }

  /**
   Every `notarial_act` has a label of its own: the table's keys are
   exactly the six wire words, no label is empty (so the fallback is
   never taken for a known act), and no two acts share a label. Any other
   word is shown as it is; the table is read as a plain map, without the
   keys a JavaScript object inherits.
   */
  lemma EveryActHasItsOwnLabel()
    ensures forall w :: w in ServiceTypeLabels <==> ParseAct(w).Some?
    ensures forall a: NotarialAct :: ServiceTypeLabel(ActName(a)) == ServiceTypeLabels[ActName(a)] != ""
    ensures forall a, b: NotarialAct :: ServiceTypeLabel(ActName(a)) == ServiceTypeLabel(ActName(b)) ==> a == b
    ensures forall w :: ParseAct(w).None? ==> ServiceTypeLabel(w) == w
  {
    LabelKeysAreActWords();
    ConstantsMatchEnums();
    forall a: NotarialAct ensures ServiceTypeLabel(ActName(a)) == ServiceTypeLabels[ActName(a)] != "" {
      ActLabelFound(a);
    }
    forall a: NotarialAct, b: NotarialAct | ServiceTypeLabel(ActName(a)) == ServiceTypeLabel(ActName(b))
      ensures a == b
    {
      ActLabelFound(a);
      ActLabelFound(b);
      assert LabelInitial(a) == LabelInitial(b);
    }
  }

  /** `s.charAt(0).toUpperCase() + s.slice(1)`. */
  function Capitalize(s: string): (r: string)
    ensures |r| == |s|
    ensures |s| > 0 ==> r[0] == UpperChar(s[0]) && r[1..] == s[1..]
  {
    if |s| == 0 then "" else [UpperChar(s[0])] + s[1..]
  }

  /** The status badge of a job. */
  function StatusLabel(s: JobStatus): string {
    Capitalize(StatusName(s))
  }

  predicate AllAsciiLower(s: string) {
    forall i :: 0 <= i < |s| ==> IsAsciiLower(s[i])
  }

  /**
   Capitalising a lower-case word changes only its first letter, and
   lower-casing the result gives the word back.
   */
  lemma CapitalizeInverse(w: string)
    requires AllAsciiLower(w)
    ensures |w| > 0 ==> IsAsciiUpper(Capitalize(w)[0])
    ensures Lower(Capitalize(w)) == w
  {
    var c := Capitalize(w);
    forall i | 0 <= i < |w| ensures Lower(c)[i] == w[i] {
      if i > 0 {
        assert c[i] == c[1..][i - 1] == w[1..][i - 1] == w[i];
      }
    }
  }

  /**
   The badge is the status word with its first letter upper-cased: the four
   badges read Open, Claimed, Completed and Cancelled, and lower-casing a
   badge gives back the status on the wire.
   */
  lemma StatusLabelsRoundTrip()
    ensures StatusLabel(Open) == "Open" && StatusLabel(Claimed) == "Claimed"
    ensures StatusLabel(Completed) == "Completed" && StatusLabel(Cancelled) == "Cancelled"
    ensures forall s: JobStatus :: ParseStatus(Lower(StatusLabel(s))) == Some(s)
  {
    StatusLabelIs(Open, "Open");
    StatusLabelIs(Claimed, "Claimed");
    StatusLabelIs(Completed, "Completed");
    StatusLabelIs(Cancelled, "Cancelled");
    EnumRoundTrips();
    forall s: JobStatus ensures ParseStatus(Lower(StatusLabel(s))) == Some(s) {
      CapitalizeInverse(StatusName(s));
    }
  }

  lemma StatusLabelIs(s: JobStatus, badge: string)
    requires badge == (match s
      case Open => "Open"
      case Claimed => "Claimed"
      case Completed => "Completed"
      case Cancelled => "Cancelled")
    ensures StatusLabel(s) == badge
  {
    var w := StatusName(s);
    assert StatusLabel(s) == [UpperChar(w[0])] + w[1..];
  }

  // ---------------------------------------------------------------------
  // Payout
  // ---------------------------------------------------------------------

  /** JavaScript's `Number(x)` on a nullable money column: null reads as 0. */
  function NumberOf(x: Option<int>): (r: int)
    ensures x.Some? ==> r == x.value
    ensures x.None? ==> r == 0
  {
    x.GetOr(0)
  }

  /** The payout shown on a job card, in cents: `fee + travel_fee`. */
  function Payout(j: Job): (r: int)
    ensures j.fee.Some? && j.travelFee.Some? ==> r == j.fee.value + j.travelFee.value
    ensures j.fee.None? ==> r == NumberOf(j.travelFee)
    ensures j.travelFee.None? ==> r == NumberOf(j.fee)
  {
    NumberOf(j.fee) + NumberOf(j.travelFee)
  }

  /** No write from the notary pages changes a job's payout. */
  lemma WritesKeepPayout(store: Store, w: Write, k: JobId)
    requires k in store
    ensures k in ApplyWrite(store, w) && Payout(ApplyWrite(store, w)[k]) == Payout(store[k])
  {
  }

  // ---------------------------------------------------------------------
  // Buttons
  // ---------------------------------------------------------------------

  /** Complete and Cancel are rendered only on the Active (`claimed`) tab. */
  function ActionsOffered(tab: MyJobsTab): (r: set<Resolution>)
    ensures r != {} <==> TabStatus(tab) == Claimed
    ensures r != {} ==> r == {Complete, Cancel}
  {
    if tab == ActiveTab then {Complete, Cancel} else {}
  }

  /**
   A button the page offers acts on a job it listed on that tab; when the
   row has not changed since it was listed, the job is claimed and the
   write keeps every row's lifecycle invariant.
   */
  lemma OfferedActionKeepsLifecycle(store: Store, user: UserId, tab: MyJobsTab, jobId: JobId, res: Resolution, now: Time)
    requires AllLifecycleOk(store)
    requires jobId in store && Matches(MyJobsFilter(user, TabStatus(tab)), store[jobId])
    requires res in ActionsOffered(tab)
    ensures AllLifecycleOk(UpdateJobStatus(store, jobId, res, now).store)
    ensures UpdateJobStatus(store, jobId, res, now).store[jobId].claimedBy == Some(user)
  {
    ResolveClaimedKeepsLifecycle(store, jobId, res, now);
  }

  // ---------------------------------------------------------------------
  // Claim feedback
  // ---------------------------------------------------------------------

  datatype ClaimToast = JobClaimed | CouldNotClaim

  /**
   The job board's message as written: it looks only at the store's
   `error`. An update whose filter matched no row is not an error, so a
   lost race is reported as a successful claim.
   */
  function ClaimMessageAsWritten(storeError: bool): (m: ClaimToast)
    ensures m == CouldNotClaim <==> storeError
  {
    if storeError then CouldNotClaim else JobClaimed
  }

  /**
   The second of two claims on one job matches nothing and leaves the first
   claimant in place, yet the message as written tells the second notary
   the job was claimed.
   */
  lemma LostRaceReportedAsClaimed(store: Store, a: UserId, b: UserId, jobId: JobId, t1: Time, t2: Time)
    requires jobId in store && store[jobId].status == Open
    requires a != b
    ensures var second := ConditionalClaim(ConditionalClaim(store, a, jobId, t1).store, b, jobId, t2);
      && !second.matched
      && second.store[jobId].claimedBy == Some(a)
      && ClaimMessageAsWritten(false) == JobClaimed
  {
  }

  /**
   The message the page evidently means to show: the claim succeeded only
   when the store raised no error and the conditional update matched the
   row.
   */
  function ClaimMessage(storeError: bool, r: WriteOutcome): (m: ClaimToast)
    ensures m == JobClaimed <==> !storeError && r.matched
  {
    if storeError || !r.matched then CouldNotClaim else JobClaimed
  }

  /**
   With the corrected message, a notary is told "claimed" exactly when the
   job was open and now belongs to them; of two notaries claiming one open
   job in turn, the first is told "claimed" and the second is not.
   */
  lemma ClaimMessageTellsTheTruth(store: Store, u: UserId, jobId: JobId, now: Time)
    ensures var r := ConditionalClaim(store, u, jobId, now);
      ClaimMessage(false, r) == JobClaimed
      <==> jobId in store && store[jobId].status == Open && r.store[jobId].claimedBy == Some(u)
  {
  }

  lemma ClaimMessageRaceOutcome(store: Store, a: UserId, b: UserId, jobId: JobId, t1: Time, t2: Time)
    requires jobId in store && store[jobId].status == Open
    ensures var first := ConditionalClaim(store, a, jobId, t1);
      var second := ConditionalClaim(first.store, b, jobId, t2);
      && ClaimMessage(false, first) == JobClaimed
      && ClaimMessage(false, second) == CouldNotClaim
  {
  }
}

=== FILE: nav.dfy ===
/**
 The site header: which navigation link is highlighted for the current
 path, and where the notary link points for a signed-in or anonymous
 visitor.
 */
module Nav {
  import opened Common

  datatype NavItem = NavItem(name: string, href: string)

  const Navigation: seq<NavItem> := [
    NavItem("Home", "/"),
    NavItem("Services", "/#services"),
    NavItem("About", "/#about"),
    NavItem("Book Now", "/book")
  ]

  /** `pat` occurs in `s` at position `i`. */
  predicate OccursAt(s: string, pat: string, i: nat) {
    i + |pat| <= |s| && s[i..i + |pat|] == pat
  }

  /** The first position at or after `i` where `pat` occurs, if any. */
  function IndexFrom(s: string, pat: string, i: nat): (r: Option<nat>)
    requires i <= |s|
    ensures r.Some? ==> i <= r.value && OccursAt(s, pat, r.value)
    ensures r.Some? ==> forall j :: i <= j < r.value ==> !OccursAt(s, pat, j)
    ensures r.None? ==> forall j :: i <= j <= |s| ==> !OccursAt(s, pat, j)
    decreases |s| - i
  {
    if OccursAt(s, pat, i) then Some(i)
    else if i == |s| then None
    else IndexFrom(s, pat, i + 1)
  }

  /** `s.indexOf(pat)`: the first position where `pat` occurs, if any. */
  function IndexOf(s: string, pat: string): (r: Option<nat>)
    ensures r.Some? ==> OccursAt(s, pat, r.value)
    ensures r.Some? ==> forall j :: 0 <= j < r.value ==> !OccursAt(s, pat, j)
    ensures r.None? ==> forall j :: 0 <= j <= |s| ==> !OccursAt(s, pat, j)
  {
    IndexFrom(s, pat, 0)
  }

  /**
   `s.replace(pat, rep)` with a string pattern: only the first occurrence is
   replaced; without one the text is unchanged.
   */
  function ReplaceFirst(s: string, pat: string, rep: string): (r: string)
    ensures IndexOf(s, pat).None? ==> r == s
    ensures IndexOf(s, pat).Some? ==>
      var i := IndexOf(s, pat).value;
      r == s[..i] + rep + s[i + |pat|..]
  {
    match IndexOf(s, pat)
    case None => s
    case Some(i) => s[..i] + rep + s[i + |pat|..]
  }

  /**
   `isActive(href)`: the home link only on "/" itself; any other link when
   the path starts with its href, with "/#" read as "/".
   */
  predicate IsActive(href: string, pathname: string) {
    if href == "/" then pathname == "/"
    else StartsWith(pathname, ReplaceFirst(href, "/#", "/"))
  }

  /** The home link is highlighted on "/" and nowhere else. */
  lemma HomeActiveExactly(pathname: string)
    ensures IsActive("/", pathname) <==> pathname == "/"
  {
  }

  /** A section anchor on the home page ("/#x") is active on the paths under "/x". */
  lemma AnchorRewrite(section: string)
    ensures ReplaceFirst("/#" + section, "/#", "/") == "/" + section
  {
    var s := "/#" + section;
    assert OccursAt(s, "/#", 0) by { assert s[..2] == "/#"; }
    assert IndexOf(s, "/#") == Some(0);
    assert s[2..] == section;
  }

  /** Text without a '#' has no "/#" to rewrite. */
  lemma NoHashNoAnchor(s: string)
    requires '#' !in s
    ensures IndexOf(s, "/#").None?
  {
    var r := IndexOf(s, "/#");
    if r.Some? {
      AnchorHasHash(s, r.value);
      assert false;
    }
  }

  lemma AnchorHasHash(s: string, i: nat)
    requires OccursAt(s, "/#", i)
    ensures s[i + 1] == '#'
  {
    assert s[i + 1] == s[i..i + 2][1];
  }

  /** A link with no "/#" in it is compared with the path as it is. */
  lemma PlainLinkActive(href: string, pathname: string)
    requires href != "/" && IndexOf(href, "/#").None?
    ensures IsActive(href, pathname) <==> StartsWith(pathname, href)
  {
  }

  /**
   "Services" is highlighted exactly on paths starting with "/services",
   "About" on paths starting with "/about", and "Book Now" on any path
   that starts with "/book" -- "/bookings" included, since the test is a
   raw prefix test.
   */
  lemma NavigationLinksActive(pathname: string)
    ensures IsActive("/#services", pathname) <==> StartsWith(pathname, "/services")
    ensures IsActive("/#about", pathname) <==> StartsWith(pathname, "/about")
    ensures IsActive("/book", pathname) <==> StartsWith(pathname, "/book")
    ensures IsActive("/book", "/bookings")
  {
    AnchorRewrite("services");
    assert "/#" + "services" == "/#services";
    assert "/" + "services" == "/services";
    AnchorRewrite("about");
    assert "/#" + "about" == "/#about";
    assert "/" + "about" == "/about";
    NoHashNoAnchor("/book");
    PlainLinkActive("/book", pathname);
    assert "/bookings"[..5] == "/book";
  }

  /** On the home page only the Home link is highlighted. */
  lemma OnlyHomeActiveOnRoot()
    ensures forall i :: 0 <= i < |Navigation| ==> (IsActive(Navigation[i].href, "/") <==> i == 0)
  {
    NavigationLinksActive("/");
  }

  /** The notary button: the jobs board for a signed-in user, the sign-in page otherwise. */
  function PortalLink(signedIn: bool): (link: NavItem)
    ensures signedIn <==> link.href == "/notary/jobs"
    ensures !signedIn <==> link.href == "/auth"
    ensures signedIn <==> link.name == "Notary Portal"
  {
    if signedIn then NavItem("Notary Portal", "/notary/jobs") else NavItem("Notary Login", "/auth")
  }
}

=== FILE: notary_profile.dfy ===
/**
 The notary's profile page: the `profiles` row as stored, the form the page
 shows (nullable text read through JavaScript's `||`, availability through
 `??`), the edits the form allows, and the update the Save button sends,
 keyed on the signed-in user's id.
 */
module NotaryProfile {
  import opened Common
  import opened Schema

  /** The columns of a `profiles` row that the page reads or writes. */
  datatype ProfileRow = ProfileRow(
    userId: UserId,
    email: string,
    fullName: string,
    phone: Option<string>,
    address: Option<string>,
    city: Option<string>,
    state: Option<string>,
    zipCode: Option<string>,
    commissionNumber: Option<string>,
    commissionExpiry: Option<string>,
    isAvailable: Option<bool>)

  /** The form's state: every field a plain string, availability a flag. */
  datatype Profile = Profile(
    fullName: string,
    email: string,
    phone: string,
    address: string,
    city: string,
    state: string,
    zipCode: string,
    commissionNumber: string,
    commissionExpiry: string,
    isAvailable: bool)

  /** The form before anything is loaded: empty, in Texas, available. */
  const DefaultProfile := Profile("", "", "", "", "", "TX", "", "", "", true)

  /** JavaScript's `x || d` on a nullable string: both null and "" give `d`. */
  function OrDefault(x: Option<string>, d: string): (r: string)
    ensures x.Some? && x.value != "" ==> r == x.value
    ensures x.None? || x.value == "" ==> r == d
  {
    if x.Some? && x.value != "" then x.value else d
  }

  /** `s || d` on a string column that cannot be null. */
  function TextOr(s: string, d: string): (r: string)
    ensures s != "" ==> r == s
    ensures s == "" ==> r == d
  {
    if s != "" then s else d
  }

  /**
   The form filled from a stored row: absent text reads as "", an absent
   or empty state as "TX", and an absent availability as available.
   */
  function Normalize(row: ProfileRow): (p: Profile)
    ensures p.email == row.email && p.fullName == row.fullName
    ensures p.state != ""
    ensures row.state.Some? && row.state.value != "" ==> p.state == row.state.value
    ensures row.state.None? || row.state.value == "" ==> p.state == "TX"
    ensures row.isAvailable.None? ==> p.isAvailable
    ensures row.isAvailable.Some? ==> p.isAvailable == row.isAvailable.value
    ensures row.phone.None? ==> p.phone == ""
    ensures row.phone.Some? ==> p.phone == row.phone.value
    ensures row.address.None? ==> p.address == ""
    ensures row.address.Some? ==> p.address == row.address.value
    ensures row.city.None? ==> p.city == ""
    ensures row.city.Some? ==> p.city == row.city.value
    ensures row.zipCode.None? ==> p.zipCode == ""
    ensures row.zipCode.Some? ==> p.zipCode == row.zipCode.value
    ensures row.commissionNumber.None? ==> p.commissionNumber == ""
    ensures row.commissionNumber.Some? ==> p.commissionNumber == row.commissionNumber.value
    ensures row.commissionExpiry.None? ==> p.commissionExpiry == ""
    ensures row.commissionExpiry.Some? ==> p.commissionExpiry == row.commissionExpiry.value
  {
    Profile(
      TextOr(row.fullName, ""),
      TextOr(row.email, ""),
      OrDefault(row.phone, ""),
      OrDefault(row.address, ""),
      OrDefault(row.city, ""),
      OrDefault(row.state, "TX"),
      OrDefault(row.zipCode, ""),
      OrDefault(row.commissionNumber, ""),
      OrDefault(row.commissionExpiry, ""),
      row.isAvailable.GetOr(true))
  }

  /** The `profiles` table, one row per user id. */
  type Profiles = map<UserId, ProfileRow>

  predicate WellKeyed(t: Profiles) {
    forall u :: u in t ==> t[u].userId == u
  }

  /**
   `fetchProfile`: without a signed-in user, or when the user has no row,
   the form is left as it was; otherwise it shows that user's row.
   */
  function Fetch(current: Profile, user: Option<UserId>, t: Profiles): (p: Profile)
    ensures user.None? ==> p == current
    ensures user.Some? && user.value !in t ==> p == current
    ensures user.Some? && user.value in t ==> p == Normalize(t[user.value])
  {
    match user
    case None => current
    case Some(u) => if u in t then Normalize(t[u]) else current
  }

  // ---------------------------------------------------------------------
  // Editing
  // ---------------------------------------------------------------------

  /** The text inputs the form lets the user change; email is rendered disabled. */
  datatype TextField = FullName | Phone | Address | City | State | ZipCode | CommissionNumber | CommissionExpiry

  function GetText(p: Profile, f: TextField): string {
    match f
    case FullName => p.fullName
    case Phone => p.phone
    case Address => p.address
    case City => p.city
    case State => p.state
    case ZipCode => p.zipCode
    case CommissionNumber => p.commissionNumber
    case CommissionExpiry => p.commissionExpiry
  }

  /** `setProfile({...profile, [f]: value})`: one text field replaced, everything else kept. */
  function Edit(p: Profile, f: TextField, v: string): (q: Profile)
    ensures GetText(q, f) == v
    ensures forall g: TextField :: g != f ==> GetText(q, g) == GetText(p, g)
    ensures q.email == p.email && q.isAvailable == p.isAvailable
  {
    match f
    case FullName => p.(fullName := v)
    case Phone => p.(phone := v)
    case Address => p.(address := v)
    case City => p.(city := v)
    case State => p.(state := v)
    case ZipCode => p.(zipCode := v)
    case CommissionNumber => p.(commissionNumber := v)
    case CommissionExpiry => p.(commissionExpiry := v)
  }

  /** The availability switch. */
  function SetAvailable(p: Profile, checked: bool): (q: Profile)
    ensures q.isAvailable == checked && q.(isAvailable := p.isAvailable) == p
  {
    p.(isAvailable := checked)
  }

  // ---------------------------------------------------------------------
  // Saving
  // ---------------------------------------------------------------------

  /**
   The columns the Save button writes: nine of them, never `email` or
   `user_id`; an empty commission expiry is written as null.
   */
  datatype Payload = Payload(
    fullName: string,
    phone: string,
    address: string,
    city: string,
    state: string,
    zipCode: string,
    commissionNumber: string,
    commissionExpiry: Option<string>,
    isAvailable: bool)

  function SavePayload(p: Profile): (u: Payload)
    ensures u.commissionExpiry.None? <==> p.commissionExpiry == ""
    ensures u.commissionExpiry.Some? ==> u.commissionExpiry.value == p.commissionExpiry
    ensures u.state == p.state && u.isAvailable == p.isAvailable
  {
    Payload(p.fullName, p.phone, p.address, p.city, p.state, p.zipCode, p.commissionNumber,
      if p.commissionExpiry == "" then None else Some(p.commissionExpiry),
      p.isAvailable)
  }

  /** One row after the update: the nine columns replaced, the rest kept. */
  function ApplyPayload(row: ProfileRow, u: Payload): (r: ProfileRow)
    ensures r.userId == row.userId && r.email == row.email
    ensures r.state == Some(u.state) && r.isAvailable == Some(u.isAvailable)
  {
    row.(fullName := u.fullName, phone := Some(u.phone), address := Some(u.address),
         city := Some(u.city), state := Some(u.state), zipCode := Some(u.zipCode),
         commissionNumber := Some(u.commissionNumber), commissionExpiry := u.commissionExpiry,
         isAvailable := Some(u.isAvailable))
  }

  /**
   `saveProfile`: nothing without a signed-in user or when the store reports
   an error; otherwise the update filtered on `user_id`, which changes the
   user's own row if there is one and no other row.
   */
  function Save(t: Profiles, user: Option<UserId>, p: Profile, storeError: bool): (r: Profiles)
    ensures r.Keys == t.Keys
    ensures forall k :: k in t && (user.None? || k != user.value) ==> r[k] == t[k]
    ensures user.Some? && user.value in t && !storeError ==>
      r[user.value] == ApplyPayload(t[user.value], SavePayload(p))
    ensures user.None? || storeError ==> r == t
  {
    match user
    case None => t
    case Some(u) =>
      if !storeError && u in t then t[u := ApplyPayload(t[u], SavePayload(p))] else t
  }

  lemma SaveKeepsKeying(t: Profiles, user: Option<UserId>, p: Profile, storeError: bool)
    requires WellKeyed(t)
    ensures WellKeyed(Save(t, user, p, storeError))
    ensures forall k :: k in t ==> Save(t, user, p, storeError)[k].email == t[k].email
  {
  }

  /**
   Saving and reloading gives back the form, except that the email shown is
   the stored one, and a state left empty comes back as "TX": the round trip
   is exact precisely when the state is not empty.
   */
  lemma SaveThenFetch(t: Profiles, u: UserId, p: Profile, current: Profile)
    requires u in t
    ensures var q := Fetch(current, Some(u), Save(t, Some(u), p, false));
      && q.email == t[u].email
      && (q.(email := p.email) == p <==> p.state != "")
  {
    var q := Fetch(current, Some(u), Save(t, Some(u), p, false));
    if p.state == "" {
      assert q.state == "TX";
    }
  }

  /** A fresh form saved and reloaded comes back unchanged but for the stored email. */
  lemma DefaultSurvivesRoundTrip(t: Profiles, u: UserId, current: Profile)
    requires u in t
    ensures Fetch(current, Some(u), Save(t, Some(u), DefaultProfile, false)) == DefaultProfile.(email := t[u].email)
  {
    SaveThenFetch(t, u, DefaultProfile, current);
  }
}

=== FILE: schema.dfy ===
/**
 The database schema the portal talks to: the three enumerations, their
 wire spellings and the `Constants` lists generated beside them, the `jobs`
 row and insert shapes, and the `session_logs` row and insert shapes with
 the foreign key from `session_logs.job_id` to `jobs.id`.

 Timestamps and calendar dates are opaque naturals whose order is the only
 thing the portal relies on. Money is integer cents.
 */
module Schema {
  import opened Common

  type UserId = string
  type JobId = string
  type SessionId = string

  /** A timestamp or calendar date; only the order is observable. */
  type Time = nat

  // ---------------------------------------------------------------------
  // Enumerations
  // ---------------------------------------------------------------------

  datatype AppRole = Admin | Notary

  datatype JobStatus = Open | Claimed | Completed | Cancelled

  datatype NotarialAct =
    | Acknowledgment
    | Jurat
    | CopyCertification
    | OathAffirmation
    | SignatureWitnessing
    | LoanSigning

  /** Every member of each enumeration, in the order the union type lists them. */
  const AllRoles: seq<AppRole> := [Admin, Notary]
  const AllStatuses: seq<JobStatus> := [Open, Claimed, Completed, Cancelled]
  const AllActs: seq<NotarialAct> :=
    [Acknowledgment, Jurat, CopyCertification, OathAffirmation, SignatureWitnessing, LoanSigning]

  /** The generated `Constants.public.Enums` arrays. */
  const RoleConstants: seq<string> := ["admin", "notary"]
  const StatusConstants: seq<string> := ["open", "claimed", "completed", "cancelled"]
  const ActConstants: seq<string> :=
    ["acknowledgment", "jurat", "copy_certification", "oath_affirmation", "signature_witnessing", "loan_signing"]

  function RoleName(r: AppRole): string {
    match r
    case Admin => "admin"
    case Notary => "notary"
  }

  function StatusName(s: JobStatus): string {
    match s
    case Open => "open"
    case Claimed => "claimed"
    case Completed => "completed"
    case Cancelled => "cancelled"
  }

  function ActName(a: NotarialAct): string {
    match a
    case Acknowledgment => "acknowledgment"
    case Jurat => "jurat"
    case CopyCertification => "copy_certification"
    case OathAffirmation => "oath_affirmation"
    case SignatureWitnessing => "signature_witnessing"
    case LoanSigning => "loan_signing"
  }

  /** Reads an `app_role` off the wire; any other word is rejected. */
  function ParseRole(w: string): (r: Option<AppRole>)
    ensures r.Some? ==> RoleName(r.value) == w
    ensures r.None? ==> forall x: AppRole :: RoleName(x) != w
  {
    if w == "admin" then Some(Admin)
    else if w == "notary" then Some(Notary)
    else None
  }

  /** Reads a `job_status` off the wire; any other word is rejected. */
  function ParseStatus(w: string): (r: Option<JobStatus>)
    ensures r.Some? ==> StatusName(r.value) == w
    ensures r.None? ==> forall s: JobStatus :: StatusName(s) != w
  {
    if w == "open" then Some(Open)
    else if w == "claimed" then Some(Claimed)
    else if w == "completed" then Some(Completed)
    else if w == "cancelled" then Some(Cancelled)
    else None
  }

  /** Reads a `notarial_act` off the wire; any other word is rejected. */
  function ParseAct(w: string): (r: Option<NotarialAct>)
    ensures r.Some? ==> ActName(r.value) == w
    ensures r.None? ==> forall a: NotarialAct :: ActName(a) != w
  {
    if w == "acknowledgment" then Some(Acknowledgment)
    else if w == "jurat" then Some(Jurat)
    else if w == "copy_certification" then Some(CopyCertification)
    else if w == "oath_affirmation" then Some(OathAffirmation)
    else if w == "signature_witnessing" then Some(SignatureWitnessing)
    else if w == "loan_signing" then Some(LoanSigning)
    else None
  }

  /** Every enumeration member survives a trip over the wire unchanged. */
  lemma EnumRoundTrips()
    ensures forall r: AppRole :: ParseRole(RoleName(r)) == Some(r)
    ensures forall s: JobStatus :: ParseStatus(StatusName(s)) == Some(s)
    ensures forall a: NotarialAct :: ParseAct(ActName(a)) == Some(a)
  {
    forall r: AppRole ensures ParseRole(RoleName(r)) == Some(r) {
      match r
      case Admin =>
      case Notary =>
    }
    forall s: JobStatus ensures ParseStatus(StatusName(s)) == Some(s) {
      match s
      case Open =>
      case Claimed =>
      case Completed =>
      case Cancelled =>
    }
    forall a: NotarialAct ensures ParseAct(ActName(a)) == Some(a) {
      match a
      case Acknowledgment =>
      case Jurat =>
      case CopyCertification =>
      case OathAffirmation =>
      case SignatureWitnessing =>
      case LoanSigning =>
    }
  }

  /** `job_status` has exactly four members, each spelled differently. */
  lemma JobStatusHasFourValues()
    ensures |AllStatuses| == 4 && Distinct(AllStatuses)
    ensures forall s: JobStatus :: s in AllStatuses
    ensures forall s, t: JobStatus :: StatusName(s) == StatusName(t) ==> s == t
  {
    EnumRoundTrips();
    forall s: JobStatus ensures s in AllStatuses {
      match s
      case Open => assert AllStatuses[0] == s;
      case Claimed => assert AllStatuses[1] == s;
      case Completed => assert AllStatuses[2] == s;
      case Cancelled => assert AllStatuses[3] == s;
    }
  }

  /** `notarial_act` has exactly six members, from acknowledgment to loan_signing. */
  lemma NotarialActHasSixValues()
    ensures |AllActs| == 6 && Distinct(AllActs)
    ensures AllActs[0] == Acknowledgment && AllActs[5] == LoanSigning
    ensures forall a: NotarialAct :: a in AllActs
    ensures forall a, b: NotarialAct :: ActName(a) == ActName(b) ==> a == b
  {
    EnumRoundTrips();
    forall a: NotarialAct ensures a in AllActs {
      match a
      case Acknowledgment => assert AllActs[0] == a;
      case Jurat => assert AllActs[1] == a;
      case CopyCertification => assert AllActs[2] == a;
      case OathAffirmation => assert AllActs[3] == a;
      case SignatureWitnessing => assert AllActs[4] == a;
      case LoanSigning => assert AllActs[5] == a;
    }
  }

  /**
   Each `Constants` array spells the members of its union type, in the same
   order, each once; a word is in the array exactly when it parses.
   */
  lemma ConstantsMatchEnums()
    ensures |RoleConstants| == |AllRoles| && Distinct(RoleConstants)
    ensures forall i :: 0 <= i < |AllRoles| ==> RoleConstants[i] == RoleName(AllRoles[i])
    ensures forall w :: w in RoleConstants <==> ParseRole(w).Some?
    ensures |StatusConstants| == |AllStatuses| && Distinct(StatusConstants)
    ensures forall i :: 0 <= i < |AllStatuses| ==> StatusConstants[i] == StatusName(AllStatuses[i])
    ensures forall w :: w in StatusConstants <==> ParseStatus(w).Some?
    ensures |ActConstants| == |AllActs| && Distinct(ActConstants)
    ensures forall i :: 0 <= i < |AllActs| ==> ActConstants[i] == ActName(AllActs[i])
    ensures forall w :: w in ActConstants <==> ParseAct(w).Some?
  {
  }

  // ---------------------------------------------------------------------
  // jobs
  // ---------------------------------------------------------------------

  /**
   A row of `jobs`. The nullable columns are `Option`s; `claimed_by`,
   `claimed_at` and `completed_at` in particular. Geocoordinates are
   floating point and are not part of this model.
   */
  datatype Job = Job(
    id: JobId,
    address: string,
    city: string,
    claimedAt: Option<Time>,
    claimedBy: Option<UserId>,
    clientEmail: Option<string>,
    clientName: string,
    clientPhone: Option<string>,
    completedAt: Option<Time>,
    createdAt: Time,
    createdBy: Option<UserId>,
    fee: Option<int>,
    notes: Option<string>,
    scheduledDate: Time,
    scheduledTime: string,
    serviceType: NotarialAct,
    state: Option<string>,
    status: JobStatus,
    travelFee: Option<int>,
    updatedAt: Time,
    zipCode: Option<string>)

  /**
   The `jobs` insert shape: the six required columns are plain values, every
   optional one is an `Option` (absent and explicit null are the same here).
   */
  datatype JobInsert = JobInsert(
    address: string,
    city: string,
    clientName: string,
    scheduledDate: Time,
    scheduledTime: string,
    serviceType: NotarialAct,
    id: Option<JobId>,
    claimedAt: Option<Time>,
    claimedBy: Option<UserId>,
    clientEmail: Option<string>,
    clientPhone: Option<string>,
    completedAt: Option<Time>,
    createdAt: Option<Time>,
    createdBy: Option<UserId>,
    fee: Option<int>,
    notes: Option<string>,
    state: Option<string>,
    status: Option<JobStatus>,
    travelFee: Option<int>,
    updatedAt: Option<Time>,
    zipCode: Option<string>)

  /**
   The lifecycle invariant of a job row: claimed_by and claimed_at are set
   exactly when the job has left `open`, and completed_at is set exactly
   when it is `completed`.
   */
  predicate LifecycleOk(j: Job) {
    && (j.claimedBy.None? <==> j.status == Open)
    && (j.claimedAt.None? <==> j.status == Open)
    && (j.completedAt.Some? <==> j.status == Completed)
  }

  /** An insert with only its required columns: everything else defaulted. */
  predicate MinimalInsert(ins: JobInsert) {
    && ins.claimedAt.None? && ins.claimedBy.None? && ins.completedAt.None?
    && ins.status.None?
  }

  /**
   The row the store creates from an insert: omitted nullable columns become
   null, a missing id becomes `freshId`, a missing status becomes `open`
   (the column default the lifecycle assumes), and an omitted timestamp
   becomes `now`.
   */
  function NewJob(ins: JobInsert, freshId: JobId, now: Time): (j: Job)
    ensures j.id == ins.id.GetOr(freshId)
    ensures j.status == (if ins.status.Some? then ins.status.value else Open)
    ensures ins.claimedBy.None? ==> j.claimedBy.None?
    ensures ins.claimedAt.None? ==> j.claimedAt.None?
    ensures ins.completedAt.None? ==> j.completedAt.None?
    ensures ins.updatedAt.Some? ==> j.updatedAt == ins.updatedAt.value
    ensures ins.updatedAt.None? ==> j.updatedAt == now
    ensures ins.createdAt.Some? ==> j.createdAt == ins.createdAt.value
    ensures ins.createdAt.None? ==> j.createdAt == now
    ensures MinimalInsert(ins) ==> j.status == Open && LifecycleOk(j)
  {
    Job(
      id := ins.id.GetOr(freshId),
      address := ins.address,
      city := ins.city,
      claimedAt := ins.claimedAt,
      claimedBy := ins.claimedBy,
      clientEmail := ins.clientEmail,
      clientName := ins.clientName,
      clientPhone := ins.clientPhone,
      completedAt := ins.completedAt,
      createdAt := ins.createdAt.GetOr(now),
      createdBy := ins.createdBy,
      fee := ins.fee,
      notes := ins.notes,
      scheduledDate := ins.scheduledDate,
      scheduledTime := ins.scheduledTime,
      serviceType := ins.serviceType,
      state := ins.state,
      status := ins.status.GetOr(Open),
      travelFee := ins.travelFee,
      updatedAt := ins.updatedAt.GetOr(now),
      zipCode := ins.zipCode)
  }

  // ---------------------------------------------------------------------
  // session_logs
  // ---------------------------------------------------------------------

  /** A row of `session_logs`; fees are cents, mileage whole miles. */
  datatype SessionLogRow = SessionLogRow(
    id: SessionId,
    actType: NotarialAct,
    createdAt: Time,
    documentType: string,
    idExpiry: Option<Time>,
    idLastFour: string,
    idType: string,
    jobId: Option<JobId>,
    mileage: Option<nat>,
    notaryFee: Option<int>,
    notaryId: UserId,
    notes: Option<string>,
    sessionDate: Time,
    sessionTime: string,
    signerAddress: Option<string>,
    signerName: string,
    travelFee: Option<int>)

  /**
   A session-log payload as a client assembles it, before it is checked
   against the insert shape: every column may be missing.
   */
  datatype SessionLogDraft = SessionLogDraft(
    actType: Option<NotarialAct>,
    documentType: Option<string>,
    idExpiry: Option<Time>,
    idLastFour: Option<string>,
    idType: Option<string>,
    jobId: Option<JobId>,
    mileage: Option<nat>,
    notaryFee: Option<int>,
    notaryId: Option<UserId>,
    notes: Option<string>,
    sessionDate: Option<Time>,
    sessionTime: Option<string>,
    signerAddress: Option<string>,
    signerName: Option<string>,
    travelFee: Option<int>)

  /** The `session_logs` insert shape: eight required columns, the rest optional. */
  datatype SessionLogInsert = SessionLogInsert(
    actType: NotarialAct,
    documentType: string,
    idLastFour: string,
    idType: string,
    notaryId: UserId,
    sessionDate: Time,
    sessionTime: string,
    signerName: string,
    idExpiry: Option<Time>,
    jobId: Option<JobId>,
    mileage: Option<nat>,
    notaryFee: Option<int>,
    notes: Option<string>,
    signerAddress: Option<string>,
    travelFee: Option<int>)

  /** The columns a session-log insert cannot omit, in schema order. */
  const RequiredSessionColumns: seq<string> :=
    ["act_type", "document_type", "id_last_four", "id_type", "notary_id", "session_date", "session_time", "signer_name"]

  /** The names whose flag says absent, in order. */
  function Absent(names: seq<string>, present: seq<bool>): (m: seq<string>)
    requires |names| == |present|
    ensures forall c :: c in m ==> exists i :: 0 <= i < |names| && names[i] == c && !present[i]
    ensures forall i :: 0 <= i < |names| && !present[i] ==> names[i] in m
    ensures |m| == 0 <==> forall i :: 0 <= i < |present| ==> present[i]
    decreases |names|
  {
    if |names| == 0 then []
    else (if present[0] then [] else [names[0]]) + Absent(names[1..], present[1..])
  }

  /** Whether each required column is present in the draft, in schema order. */
  function RequiredPresence(d: SessionLogDraft): (p: seq<bool>)
    ensures |p| == |RequiredSessionColumns|
  {
    [d.actType.Some?, d.documentType.Some?, d.idLastFour.Some?, d.idType.Some?,
     d.notaryId.Some?, d.sessionDate.Some?, d.sessionTime.Some?, d.signerName.Some?]
  }

  /** The required columns the draft leaves out, in schema order. */
  function MissingSessionColumns(d: SessionLogDraft): (m: seq<string>)
    ensures forall c :: c in m ==> c in RequiredSessionColumns
    ensures |m| == 0 <==>
      && d.actType.Some? && d.documentType.Some? && d.idLastFour.Some? && d.idType.Some?
      && d.notaryId.Some? && d.sessionDate.Some? && d.sessionTime.Some? && d.signerName.Some?
    ensures ("signer_name" in m) <==> d.signerName.None?
    ensures ("act_type" in m) <==> d.actType.None?
  {
    var p := RequiredPresence(d);
    var m := Absent(RequiredSessionColumns, p);
    assert |m| == 0 <==> forall i :: 0 <= i < |p| ==> p[i];
    assert (forall i :: 0 <= i < |p| ==> p[i]) <==>
      p[0] && p[1] && p[2] && p[3] && p[4] && p[5] && p[6] && p[7];
    RequiredColumnAt(m, p, 7, "signer_name");
    RequiredColumnAt(m, p, 0, "act_type");
    m
  }

  /** A required column is reported missing exactly when its flag says absent. */
  lemma RequiredColumnAt(m: seq<string>, p: seq<bool>, k: nat, c: string)
    requires |p| == |RequiredSessionColumns| && m == Absent(RequiredSessionColumns, p)
    requires k < |p| && RequiredSessionColumns[k] == c
    ensures c in m <==> !p[k]
  {
    if c in m {
      var i :| 0 <= i < |RequiredSessionColumns| && RequiredSessionColumns[i] == c && !p[i];
      RequiredColumnsDistinct(i, k);
    }
  }

  /** The position of a required column in schema order; 8 for any other name. */
  function RequiredColumnIndex(c: string): nat {
    if c == "act_type" then 0
    else if c == "document_type" then 1
    else if c == "id_last_four" then 2
    else if c == "id_type" then 3
    else if c == "notary_id" then 4
    else if c == "session_date" then 5
    else if c == "session_time" then 6
    else if c == "signer_name" then 7
    else 8
  }

  lemma RequiredColumnsDistinct(i: nat, k: nat)
    requires i < |RequiredSessionColumns| && k < |RequiredSessionColumns|
    requires RequiredSessionColumns[i] == RequiredSessionColumns[k]
    ensures i == k
  {
    forall j | 0 <= j < |RequiredSessionColumns|
      ensures RequiredColumnIndex(RequiredSessionColumns[j]) == j
    {
      if j == 0 {} else if j == 1 {} else if j == 2 {} else if j == 3 {}
      else if j == 4 {} else if j == 5 {} else if j == 6 {} else {}
    }
  }

  datatype ValidationError = MissingColumns(columns: seq<string>)

  datatype InsertResult = Valid(insert: SessionLogInsert) | Invalid(error: ValidationError)

  /**
   Checks a draft against the `session_logs` insert shape. It is accepted
   exactly when the eight required columns are present; the fees, mileage
   and the other optional columns never decide the outcome, and every
   column present is carried over unchanged. A rejection names every
   missing required column.
   */
  function ValidateSessionLog(d: SessionLogDraft): (r: InsertResult)
    ensures r.Valid? <==> |MissingSessionColumns(d)| == 0
    ensures r.Invalid? ==> r.error.columns == MissingSessionColumns(d) && |r.error.columns| > 0
    ensures r.Valid? ==>
      && Some(r.insert.actType) == d.actType
      && Some(r.insert.signerName) == d.signerName
      && Some(r.insert.sessionDate) == d.sessionDate
      && Some(r.insert.documentType) == d.documentType
      && Some(r.insert.idLastFour) == d.idLastFour
      && Some(r.insert.idType) == d.idType
      && Some(r.insert.notaryId) == d.notaryId
      && Some(r.insert.sessionTime) == d.sessionTime
      && r.insert.idExpiry == d.idExpiry
      && r.insert.notes == d.notes
      && r.insert.signerAddress == d.signerAddress
      && r.insert.notaryFee == d.notaryFee
      && r.insert.travelFee == d.travelFee
      && r.insert.mileage == d.mileage
      && r.insert.jobId == d.jobId
  {
    var missing := MissingSessionColumns(d);
    if |missing| > 0 then Invalid(MissingColumns(missing))
    else
      Valid(SessionLogInsert(
        actType := d.actType.value,
        documentType := d.documentType.value,
        idLastFour := d.idLastFour.value,
        idType := d.idType.value,
        notaryId := d.notaryId.value,
        sessionDate := d.sessionDate.value,
        sessionTime := d.sessionTime.value,
        signerName := d.signerName.value,
        idExpiry := d.idExpiry,
        jobId := d.jobId,
        mileage := d.mileage,
        notaryFee := d.notaryFee,
        notes := d.notes,
        signerAddress := d.signerAddress,
        travelFee := d.travelFee))
  }

  /** Whether a draft's outcome depends on its fees or mileage: it never does. */
  lemma FeesAndMileageAreOptional(d: SessionLogDraft, notaryFee: Option<int>, travelFee: Option<int>, mileage: Option<nat>)
    ensures ValidateSessionLog(d).Valid?
        <==> ValidateSessionLog(d.(notaryFee := notaryFee, travelFee := travelFee, mileage := mileage)).Valid?
  {
  }

  /** Every row's `job_id`, when present, names an existing job. */
  predicate JobRefsValid(logs: seq<SessionLogRow>, jobKeys: set<JobId>) {
    forall i :: 0 <= i < |logs| && logs[i].jobId.Some? ==> logs[i].jobId.value in jobKeys
  }

  datatype LogInsertOutcome = Inserted(logs: seq<SessionLogRow>, row: SessionLogRow) | ForeignKeyViolation

  /**
   Appends a validated insert to the log table as the store does: a
   `job_id` that names no job is refused by the `session_logs_job_id_fkey`
   constraint and the table is left as it was.
   */
  function InsertSessionLog(logs: seq<SessionLogRow>, jobKeys: set<JobId>, ins: SessionLogInsert, freshId: SessionId, now: Time)
    : (r: LogInsertOutcome)
    ensures r.ForeignKeyViolation? <==> ins.jobId.Some? && ins.jobId.value !in jobKeys
    ensures r.Inserted? ==> r.logs == logs + [r.row] && r.row.id == freshId && r.row.jobId == ins.jobId
    ensures r.Inserted? ==> r.row.createdAt == now
    ensures r.Inserted? ==>
      && r.row.actType == ins.actType
      && r.row.documentType == ins.documentType
      && r.row.idExpiry == ins.idExpiry
      && r.row.idLastFour == ins.idLastFour
      && r.row.idType == ins.idType
      && r.row.mileage == ins.mileage
      && r.row.notaryFee == ins.notaryFee
      && r.row.notaryId == ins.notaryId
      && r.row.notes == ins.notes
      && r.row.sessionDate == ins.sessionDate
      && r.row.sessionTime == ins.sessionTime
      && r.row.signerAddress == ins.signerAddress
      && r.row.signerName == ins.signerName
      && r.row.travelFee == ins.travelFee
    ensures r.Inserted? && JobRefsValid(logs, jobKeys) ==> JobRefsValid(r.logs, jobKeys)
  {
    if ins.jobId.Some? && ins.jobId.value !in jobKeys then ForeignKeyViolation
    else
      var row := SessionLogRow(
        id := freshId,
        actType := ins.actType,
        createdAt := now,
        documentType := ins.documentType,
        idExpiry := ins.idExpiry,
        idLastFour := ins.idLastFour,
        idType := ins.idType,
        jobId := ins.jobId,
        mileage := ins.mileage,
        notaryFee := ins.notaryFee,
        notaryId := ins.notaryId,
        notes := ins.notes,
        sessionDate := ins.sessionDate,
        sessionTime := ins.sessionTime,
        signerAddress := ins.signerAddress,
        signerName := ins.signerName,
        travelFee := ins.travelFee);
      Inserted(logs + [row], row)
  }
}

=== FILE: session_log.dfy ===
/**
 The admin session logger: the journal entries it lists, the fee breakdown
 of each entry, the three summary figures above the list, the fee form's
 defaults, and what saving the form does. Money is integer cents, mileage
 whole miles.
 */
module SessionLog {
  import opened Common
  import opened Schema

  /** A journal entry as the page lists it. */
  datatype SessionEntry = SessionEntry(
    id: nat,
    date: string,
    time: string,
    actLabel: string,
    signerName: string,
    signerAddress: string,
    idType: string,
    idNumber: string,
    idExpiration: string,
    documentType: string,
    notaryFee: nat,
    travelFee: nat,
    mileage: nat,
    totalFee: nat,
    notes: string)

  /** The Texas statutory maximum notary fee per signature or seal: $6.00. */
  const TexasMaxNotaryFee: nat := 600

  /** An entry's total is its notary fee plus its travel fee. */
  predicate FeeConsistent(e: SessionEntry) {
    e.totalFee == e.notaryFee + e.travelFee
  }

  /** The journal the page lists. */
  const SampleEntries: seq<SessionEntry> := [
    SessionEntry(1, "2024-01-15", "2:30 PM", "Acknowledgment", "John Smith",
      "123 Main St, Houston, TX 77001", "Texas DL", "****5678", "2027-05-15", "Deed of Trust",
      600, 5000, 24, 5600, "Refinance documents for residential property"),
    SessionEntry(2, "2024-01-15", "4:45 PM", "Jurat", "Sarah Johnson",
      "456 Oak Ave, Houston, TX 77002", "US Passport", "****1234", "2029-08-22", "Affidavit",
      600, 2500, 12, 3100, "Personal affidavit for court filing"),
    SessionEntry(3, "2024-01-14", "10:00 AM", "Acknowledgment", "Michael Brown",
      "789 Pine Rd, Houston, TX 77003", "Texas DL", "****9012", "2026-11-30", "Power of Attorney",
      600, 7500, 31, 8100, "Durable POA for healthcare decisions")
  ]

  // ---------------------------------------------------------------------
  // Per-entry columns
  // ---------------------------------------------------------------------

  function TotalFees(es: seq<SessionEntry>): (r: seq<int>)
    ensures |r| == |es| && forall i :: 0 <= i < |es| ==> r[i] == es[i].totalFee
  {
    seq(|es|, i requires 0 <= i < |es| => es[i].totalFee)
  }

  function NotaryFees(es: seq<SessionEntry>): (r: seq<int>)
    ensures |r| == |es| && forall i :: 0 <= i < |es| ==> r[i] == es[i].notaryFee
  {
    seq(|es|, i requires 0 <= i < |es| => es[i].notaryFee)
  }

  function TravelFees(es: seq<SessionEntry>): (r: seq<int>)
    ensures |r| == |es| && forall i :: 0 <= i < |es| ==> r[i] == es[i].travelFee
  {
    seq(|es|, i requires 0 <= i < |es| => es[i].travelFee)
  }

  function Mileages(es: seq<SessionEntry>): (r: seq<int>)
    ensures |r| == |es| && forall i :: 0 <= i < |es| ==> r[i] == es[i].mileage
  {
    seq(|es|, i requires 0 <= i < |es| => es[i].mileage)
  }

  // ---------------------------------------------------------------------
  // Summary figures
  // ---------------------------------------------------------------------

  /**
   The three figures above the list: the number of sessions, and the two
   running totals `reduce((sum, e) => sum + e.totalFee, 0)` and
   `reduce((sum, e) => sum + e.mileage, 0)`, taken left to right.
   */
  method Summarize(es: seq<SessionEntry>) returns (sessions: nat, revenue: int, mileage: int)
    ensures sessions == |es|
    ensures revenue == Sum(TotalFees(es))
    ensures mileage == Sum(Mileages(es))
  {
    sessions := |es|;
    revenue := 0;
    mileage := 0;
    var i := 0;
    while i < |es|
      invariant 0 <= i <= |es|
      invariant revenue == Sum(TotalFees(es)[..i])
      invariant mileage == Sum(Mileages(es)[..i])
    {
      SumPrefixStep(TotalFees(es), i);
      SumPrefixStep(Mileages(es), i);
      revenue := revenue + es[i].totalFee;
      mileage := mileage + es[i].mileage;
      i := i + 1;
    }
    assert TotalFees(es)[..|es|] == TotalFees(es);
    assert Mileages(es)[..|es|] == Mileages(es);
  }

  /** Logging one more entry raises revenue by its total fee and mileage by its miles. */
  lemma AppendEntryRaisesTotals(es: seq<SessionEntry>, e: SessionEntry)
    ensures Sum(TotalFees(es + [e])) == Sum(TotalFees(es)) + e.totalFee
    ensures Sum(Mileages(es + [e])) == Sum(Mileages(es)) + e.mileage
  {
    assert TotalFees(es + [e]) == TotalFees(es) + [e.totalFee];
    assert Mileages(es + [e]) == Mileages(es) + [e.mileage];
    SumAppend(TotalFees(es), [e.totalFee]);
    SumAppend(Mileages(es), [e.mileage]);
  }

  /**
   When every entry's total is its notary fee plus its travel fee, the
   revenue figure is the notary fees plus the travel fees.
   */
  lemma RevenueSplitsIntoFees(es: seq<SessionEntry>)
    requires forall i :: 0 <= i < |es| ==> FeeConsistent(es[i])
    ensures Sum(TotalFees(es)) == Sum(NotaryFees(es)) + Sum(TravelFees(es))
  {
    SumPointwise(TotalFees(es), NotaryFees(es), TravelFees(es));
  }

  /**
   The listed journal: every entry's total is its fee breakdown (6.00 +
   50.00 = 56.00 for the first), every notary fee is the Texas maximum,
   and the figures read 3 sessions, $168.00 and 67 miles.
   */
  lemma SampleJournalFigures()
    ensures forall i :: 0 <= i < |SampleEntries| ==> FeeConsistent(SampleEntries[i])
    ensures forall i :: 0 <= i < |SampleEntries| ==> SampleEntries[i].notaryFee == TexasMaxNotaryFee
    ensures SampleEntries[0].notaryFee + SampleEntries[0].travelFee == 5600 == SampleEntries[0].totalFee
    ensures |SampleEntries| == 3
    ensures Sum(TotalFees(SampleEntries)) == 16800
    ensures Sum(Mileages(SampleEntries)) == 67
  {
    var es := SampleEntries;
    assert TotalFees(es) == [5600, 3100, 8100];
    assert Mileages(es) == [24, 12, 31];
    assert Sum([8100]) == 8100 && Sum([31]) == 31;
  }

  // ---------------------------------------------------------------------
  // The fee form and saving
  // ---------------------------------------------------------------------

  /** The fee inputs of the "log session" dialog, as the text typed in. */
  datatype FeeForm = FeeForm(notaryFee: string, travelFee: string, mileage: string)

  const DefaultFeeForm: FeeForm := FeeForm("6.00", "", "")

  /**
   The dialog opens with the notary fee filled in as the Texas maximum and
   the travel fee and mileage empty.
   */
  lemma DefaultNotaryFeeIsTexasMax()
    ensures DefaultFeeForm.notaryFee == "6.00" && TexasMaxNotaryFee == 600
    ensures DefaultFeeForm.travelFee == "" && DefaultFeeForm.mileage == ""
  {
  }

  /** The page's state: the journal, whether the dialog is open, and the form. */
  datatype LoggerState = LoggerState(entries: seq<SessionEntry>, dialogOpen: bool, form: FeeForm)

  /**
   `handleAddEntry`: it confirms and closes the dialog. The journal and
   the form are left exactly as they were; nothing is recorded.
   */
  function SaveSession(st: LoggerState): (r: LoggerState)
    ensures r.entries == st.entries && r.form == st.form
    ensures !r.dialogOpen
  {
    st.(dialogOpen := false)
  }

  /** Saving leaves all three summary figures where they were. */
  lemma SaveKeepsFigures(st: LoggerState)
    ensures |SaveSession(st).entries| == |st.entries|
    ensures Sum(TotalFees(SaveSession(st).entries)) == Sum(TotalFees(st.entries))
    ensures Sum(Mileages(SaveSession(st).entries)) == Sum(Mileages(st.entries))
  {
  }

  // ---------------------------------------------------------------------
  // The act-type select
  // ---------------------------------------------------------------------

  /** The act types the dialog and the filter offer; an option's value is `Lower(name)`. */
  const NotaryActTypes: seq<string> :=
    ["Acknowledgment", "Jurat", "Oath/Affirmation", "Copy Certification", "Signature Witnessing"]

  /**
   The select's values are not all `notarial_act` words: "acknowledgment"
   and "jurat" are, but "oath/affirmation", "copy certification" and
   "signature witnessing" are spelled differently from the enumeration,
   and loan signing is not offered at all.
   */
  lemma ActSelectValuesVersusEnum()
    ensures ParseAct(Lower(NotaryActTypes[0])) == Some(Acknowledgment)
    ensures ParseAct(Lower(NotaryActTypes[1])) == Some(Jurat)
    ensures ParseAct(Lower(NotaryActTypes[2])).None?
    ensures ParseAct(Lower(NotaryActTypes[3])).None?
    ensures ParseAct(Lower(NotaryActTypes[4])).None?
  {
    SelectValue0();
    SelectValue1();
    SelectValue2();
    SelectValue3();
    SelectValue4();
  }

  // The five lemmas below settle one select value each. Kept apart, each
  // proof unfolds `Lower` and `ParseAct` on a single name; asked all at once
  // inside `ActSelectValuesVersusEnum`, the solver runs out of resource.

  lemma SelectValue0()
    ensures ParseAct(Lower(NotaryActTypes[0])) == Some(Acknowledgment)
  {
    LowerIs("Acknowledgment", "acknowledgment");
  }

  lemma SelectValue1()
    ensures ParseAct(Lower(NotaryActTypes[1])) == Some(Jurat)
  {
    LowerIs("Jurat", "jurat");
  }

  lemma SelectValue2()
    ensures ParseAct(Lower(NotaryActTypes[2])).None?
  {
    assert NotaryActTypes[2] == "Oath/Affirmation";
    LowerIs("Oath/Affirmation", "oath/affirmation");
    NotAnActWord2();
  }

  lemma NotAnActWord2()
    ensures ParseAct("oath/affirmation").None?
  {
  }

  lemma SelectValue3()
    ensures ParseAct(Lower(NotaryActTypes[3])).None?
  {
    assert NotaryActTypes[3] == "Copy Certification";
    LowerIs("Copy Certification", "copy certification");
    NotAnActWord3();
  }

  lemma NotAnActWord3()
    ensures ParseAct("copy certification").None?
  {
  }

  lemma SelectValue4()
    ensures ParseAct(Lower(NotaryActTypes[4])).None?
  {
    assert NotaryActTypes[4] == "Signature Witnessing";
    LowerIs("Signature Witnessing", "signature witnessing");
    NotAnActWord4();
  }

  lemma NotAnActWord4()
    ensures ParseAct("signature witnessing").None?
  {
  }

  /** Loan signing, a `notarial_act`, is not among the options. */
  lemma LoanSigningNotOffered()
    ensures |NotaryActTypes| == 5
    ensures forall i :: 0 <= i < |NotaryActTypes| ==> NotaryActTypes[i] != "Loan Signing"
  {
    forall i | 0 <= i < |NotaryActTypes| ensures NotaryActTypes[i] != "Loan Signing" {
      assert NotaryActTypes[i][0] != 'L';
    }
  }
}
